=== FILE: README.md ===
# Car-listing crawlers, modelled in Dafny

This project models the data-handling core of three Scrapy spiders that
collect car prices from Brazilian sites:

- **The marketplace listing spider** (`get-cars.py`). It checks whether a
  listing page is a block page and, if so, asks again with a different
  query. Otherwise it extracts a record from every car card. It reads the
  brand and model from an image title or the card heading, and the
  description, price digits, year, mileage, location, ad link and image
  list. It yields the records that have a brand and counts them in
  `total_carros`.
- **The price-table spider** (`webmotors_crawler.py`). It builds one
  request per configured vehicle, with decreasing priorities. For each
  answer it produces either a vehicle record or an error record:
  - the version falls back from the result info, to the first element
    naming a fuel or gearbox, to the configured slug;
  - the two prices come from the selectors first, then from the
    `R\$\s*([\d\.,]+)` pattern over the page text for the slots still
    empty;
  - it counts successes and failures and keeps every record in
    `resultados`.
- **The FIPE API spider** (`fipe_crawler.py`). It follows a chain of
  requests:
  1. the code of the first brand named like "honda";
  2. one years request per model named like "civic", with the brand code
     read back from the models URL;
  3. one details request per year;
  4. a vehicle record holding the eight fields of each details object.

What a CSS selector or a JSON document yields is an input of the model: an
`Option<string>` per selector, a sequence for `getall()`, a record or a map
for JSON. Requests are values: a URL plus the priority or codes the request
carries. The modules are:

- `Wrappers`: `Option` and `Result`.
- `Text`: Python's `strip`, `split()`, `" ".join`, `split(c)`, `lower`,
  `upper`, `in` and `str(int)`, with the lemmas relating them.
- `CarTitle`: `extract_marca_modelo`.
- `CarCard`: `extract_car_info`, the card filter, and the spider with its
  counter.
- `Webmotors`: the price-table spider.
- `Fipe`: the API spider.

Each modelled `for` loop of the source is a method, proved equal to a function that
states what the loop computes, except two loops that only build one request
per element: `start_requests` of the price-table spider
(`webmotors_crawler.py`, line 69) and `parse_anos` (`fipe_crawler.py`,
line 52). Those two are functions over the whole sequence, as are the list
comprehension and the `any` of `webmotors_crawler.py` (lines 146 and 162).
The properties are proved as lemmas about those
functions. The spiders whose fields change are classes. The price-table
spider's class keeps this invariant: `sucesso` is the number of vehicle
records, `sucesso + falha` is the number of records, and no more pages were
processed than records were kept.

The comment at `webmotors_crawler.py:137` expects a result-info text of
the form "VERSION - YEAR - STATE". The code takes the stripped text before
the first " - ", and the model follows the code. So a text whose only
" - " is the one at its end, such as "VERSION - ", gives "VERSION -",
because stripping first removes the final space and no " - " is left. `VersionBeforeSeparator` states when the expected result holds.

## Model

| member | source | states |
|---|---|---|
| Text.StripSpec | get-cars.py:228 | `strip()` removes only whitespace, from the two ends, and leaves the slice between; the result is empty exactly when the text is all whitespace |
| Text.StripIdempotent | get-cars.py:121-126 | stripping twice is stripping once |
| Text.TokensOfJoin | get-cars.py:229 | splitting on whitespace the words joined by single spaces gives the words back |
| Text.TokensEmptyIff | get-cars.py:229-232 | `split()` gives no parts exactly for a whitespace-only text |
| Text.SplitOnConcat | fipe_crawler.py:38 | a separator between two texts splits them apart |
| Text.BeforeFirst | webmotors_crawler.py:138-140 | `split(' - ')[0]` is the prefix before the first occurrence of the separator, or the whole text |
| CarTitle.ExtractMarcaModelo | get-cars.py:223-249 | brand and model are both present or both absent, and a brand is never empty |
| CarTitle.ExtractAbsentIff | get-cars.py:225-232 | no brand and no model exactly for a missing or whitespace-only title |
| CarTitle.ExtractRoundTrip | get-cars.py:228-249 | brand and model joined by a space give the normalised title, and their tokens are exactly the title's tokens |
| CarTitle.BrandRule | get-cars.py:242-247 | the brand is the first two tokens exactly when the first is a compound-brand key and the second an accepted second word, else the first token |
| CarTitle.SplitRoundTrip | get-cars.py:243-247 | cutting the words after the first k and joining each part loses no word |
| CarTitle.ExampleLandRover | get-cars.py:235-244 | "land rover defender" gives "LAND ROVER" and "DEFENDER" |
| CarTitle.ExampleToyota | get-cars.py:245-247 | "Toyota Corolla XEI" gives "TOYOTA" and "COROLLA XEI" |
| CarTitle.ExampleMixedPair | get-cars.py:242-243 | keys and second words are checked independently: "LAND BENZ X" gives "LAND BENZ" |
| CarTitle.ExampleBlank | get-cars.py:225-232 | a blank title gives neither brand nor model |
| CarCard.FirstNonEmpty | get-cars.py:139-152 | `a or b or ""` is the first present non-empty candidate, all earlier ones falsy, or "" when all are falsy |
| CarCard.DigitsOnly | get-cars.py:156 | the cleaned price holds only digits and is no longer than its text |
| CarCard.DigitsOnlyOfDigits | get-cars.py:156 | cleaning an all-digit text changes nothing |
| CarCard.DigitsOnlyIdempotent | get-cars.py:156 | cleaning is idempotent |
| CarCard.DigitsOnlyConcat | get-cars.py:156 | cleaning works piecewise, so digits keep their order |
| CarCard.DigitsOnlyCounts | get-cars.py:156 | every digit is kept as often as it occurs and nothing else is kept |
| CarCard.ExamplePrice | get-cars.py:155-156 | "R$ 45.230,00" becomes "4523000" |
| CarCard.CleanKm | get-cars.py:164-165 | mileage is absent exactly for a missing or empty text, otherwise its digits |
| CarCard.FindYearFrom | get-cars.py:160 | the search returns a position where four digits start, and no earlier one from the start position |
| CarCard.Year | get-cars.py:159-161 | a year, when found, is four digits |
| CarCard.YearIsLeftmost | get-cars.py:160-161 | the year is the leftmost run of four digits of the text, and is absent exactly when there is none |
| CarCard.NormaliseLink | get-cars.py:172-174 | the link is empty exactly when missing or empty; a link with "http" is unchanged; any other gets the site prefix; so every link starts with "http" |
| CarCard.NormaliseLinkIdempotent | get-cars.py:172-174 | normalising a normalised link changes nothing |
| CarCard.AbsoluteImageUrl | get-cars.py:188-191 | every image address starts with http:// or https://; such an address is unchanged, a protocol-relative one gets "https:" and any other gets the site address in front |
| CarCard.KeptIndices | get-cars.py:184-186 | the kept positions are increasing, each kept, and complete |
| CarCard.ImagesOfKept | get-cars.py:181-200 | the image list is exactly the kept images in input order, each with its absolute address and raw title and alt |
| CarCard.ImageUrlsAbsolute | get-cars.py:186-191 | every address in the image list is absolute |
| CarCard.CollectImages | get-cars.py:181-200 | the image loop builds that list |
| CarCard.ScanImageText | get-cars.py:116-131 | the attribute loop computes the scan: it overwrites with each usable title or alt and stops once both are set |
| CarCard.ScanValuesFromImages | get-cars.py:121-127 | each value scanned is the stripped title (alt) of some image, longer than three characters |
| CarCard.ScanContinues | get-cars.py:116-131 | a scan that has not stopped carries on into the following images |
| CarCard.ScanStops | get-cars.py:129-131 | once both values are set, later images are never looked at |
| CarCard.ScanLaterOverwrites | get-cars.py:121-127 | while the scan goes on, a later usable title replaces the title taken so far and a later usable alt replaces the alt taken so far; an unusable one leaves it as it was |
| CarCard.CardBrandAndModel | get-cars.py:134-178 | brand and model come from the image title, and from the card title only when that gave neither |
| CarCard.ExtractCarInfo | get-cars.py:107-216 | the extraction of one card computes the record function |
| CarCard.BrandIffTitle | get-cars.py:133-178 | a card has a brand exactly when its title is not blank, and the brand is never empty |
| CarCard.CarInfosAt | get-cars.py:98-100 | the k-th record is the record extracted from the k-th card |
| CarCard.Branded | get-cars.py:98-105 | the yielded records all have a brand and come from the cards, and every record with a brand is yielded |
| CarCard.BrandedSnoc | get-cars.py:98-105 | one more card adds its record exactly when it has a brand |
| CarCard.CarsSpider.constructor | get-cars.py:37-39 | the count starts at zero |
| CarCard.CarsSpider.Parse | get-cars.py:66-105 | a blocked page yields only the retry request and leaves the count; a page whose copy cannot be written ends with that error, yields nothing and leaves the count; otherwise the branded records of the main or the fallback cards are yielded and the count rises by their number |
| CarCard.CarsSpider.YieldBranded | get-cars.py:98-105 | the card loop yields the branded records in order and counts each |
| Webmotors.StartRequests | webmotors_crawler.py:64-83 | one request per entry, in order: the i-th of N entries gets the base URL followed by its path, and priority N - i, so priorities run from N down to 1, strictly decreasing |
| Webmotors.UrlSegments | webmotors_crawler.py:71-72 | the request path splits back into brand, model, year, slug and lower-cased state |
| Webmotors.NotFoundWhenPhrase | webmotors_crawler.py:94 | any text containing the not-found phrase in a capitalisation that lower-cases to it marks the page as missing |
| Webmotors.NotFoundPhraseCapitalised | webmotors_crawler.py:94 | "Página não encontrada" lower-cases to the phrase |
| Webmotors.NotFoundPhraseCapitals | webmotors_crawler.py:94 | "PÁGINA NÃO ENCONTRADA" lower-cases to the phrase |
| Webmotors.BreadcrumbBrandAndModel | webmotors_crawler.py:117-127 | whatever the breadcrumb holds, brand and model are the configured ones upper-cased |
| Webmotors.VersionFromResultInfo | webmotors_crawler.py:134-140 | a version from the result info is present only when there is one, and has no whitespace at its ends |
| Webmotors.VersionBeforeSeparator | webmotors_crawler.py:134-140 | "VERSION - rest" gives VERSION |
| Webmotors.FirstQualifying | webmotors_crawler.py:143-148 | the element taken, stripped, is longer than five characters |
| Webmotors.FirstQualifyingNoneIff | webmotors_crawler.py:143-148 | no element is taken exactly when no stripped element is longer than five characters and names a fuel or gearbox |
| Webmotors.FirstQualifyingIsFirst | webmotors_crawler.py:143-148 | the element taken is a qualifying element, stripped, and every earlier element does not qualify |
| Webmotors.FindVersionElement | webmotors_crawler.py:143-148 | the element loop stops at that element |
| Webmotors.FindVersion | webmotors_crawler.py:129-152 | the three sources are tried in order |
| Webmotors.VersaoEmptyIff | webmotors_crawler.py:131-152 | the version is empty only when all three sources are |
| Webmotors.SlugVersionNoHyphen | webmotors_crawler.py:151-152 | the slug fallback has no '-' and the slug's length |
| Webmotors.NonBlank | webmotors_crawler.py:161-162 | the kept selector texts are stripped and non-empty, and none is kept exactly when every text strips to nothing |
| Webmotors.NonBlankOne | webmotors_crawler.py:162 | one text is kept as its stripped form exactly when that is not empty |
| Webmotors.NonBlankConcat | webmotors_crawler.py:162 | filtering a concatenation filters each part, so the texts keep their order |
| Webmotors.PriceMatchesFrom | webmotors_crawler.py:172-173 | every match is a non-empty run of digits, '.' and ','; which runs are found, and in what order, is stated by PriceMatchesFirst and PriceMatchesEmptyIff |
| Webmotors.PriceRunExact | webmotors_crawler.py:172 | the amount pattern takes the whole run of price characters, up to the end of the text or the first other character |
| Webmotors.PriceMatchesLocated | webmotors_crawler.py:172-173 | every match is the amount that follows some "R$" and its whitespace, and the text ends or goes on with a character that is not a price character |
| Webmotors.SpaceRunExact | webmotors_crawler.py:172 | `\s*` takes the whole run of whitespace, up to the end of the text or the first other character |
| Webmotors.PriceMatchesSkip | webmotors_crawler.py:172-173 | at a position where the pattern does not match, the search moves on one character |
| Webmotors.PriceMatchesFirst | webmotors_crawler.py:172-173 | the first match is the amount at the leftmost position where the pattern matches, and the search resumes after that amount |
| Webmotors.PriceMatchesEmptyIff | webmotors_crawler.py:172-173 | nothing is found exactly when the pattern matches at no position |
| Webmotors.MatchStartExact | webmotors_crawler.py:172 | "R$", any whitespace run (possibly empty) and a maximal non-empty amount: the pattern matches there with exactly that amount |
| Webmotors.PriceMatchesAt | webmotors_crawler.py:172-173 | "R$", any whitespace run (possibly empty) and a maximal non-empty amount: that amount is the next match, and the search resumes after it |
| Webmotors.PriceMatchesOfSpaced | webmotors_crawler.py:172-173 | "R$", any whitespace (possibly none) and an amount are matched as exactly that amount |
| Webmotors.PriceMatchesOfFormatted | webmotors_crawler.py:172-180 | "R$ " followed by an amount is matched as exactly that amount |
| Webmotors.PriceMatchesOfTwo | webmotors_crawler.py:172-180 | two prices written one after the other are matched in order, the first for the FIPE price and the second for the marketplace price |
| Webmotors.NoDollarNoPrices | webmotors_crawler.py:172-175 | a text without '$' yields no price |
| Webmotors.FillPrices | webmotors_crawler.py:156-180 | the step-by-step filling of the two slots computes the price function |
| Webmotors.PricesSelectorsFirst | webmotors_crawler.py:156-180 | selector prices are never overwritten, and an empty slot takes the corresponding match written as "R$ " and the amount |
| Webmotors.PricesAbsentIff | webmotors_crawler.py:156-183 | both prices are absent exactly when no selector text is non-blank and the text holds no price; present prices are non-empty |
| Webmotors.PricesWebNeedsFipe | webmotors_crawler.py:160-180 | a marketplace price is present only with a FIPE price |
| Webmotors.Outcome | webmotors_crawler.py:85-212 | every record carries the page URL; an error carries the configuration; a vehicle has at least one price |
| Webmotors.OutcomeNotFound | webmotors_crawler.py:94-104 | a missing page gives the not-found error and no vehicle |
| Webmotors.OutcomeVehicleIff | webmotors_crawler.py:182-208 | a vehicle is produced exactly for an existing page whose debug copy did not fail and that has a price, with brand, model and state upper-cased, the configured year, the version and both prices |
| Webmotors.OutcomeNoPrices | webmotors_crawler.py:183-193 | an existing page without prices gives the no-prices error |
| Webmotors.OutcomeWriteError | webmotors_crawler.py:106-110 | on the first existing page, a debug copy that cannot be written gives the error record with the exception's message, the page URL and the configuration (the handler at lines 214-222) |
| Webmotors.OutcomeIgnoresWriteAfterFirst | webmotors_crawler.py:106-110 | only the first page writes a debug copy |
| Webmotors.PageRecord | webmotors_crawler.py:93-208 | the steps of one page compute the outcome |
| Webmotors.WebMotorsCrawler.constructor | webmotors_crawler.py:56-62 | counters at zero, no records |
| Webmotors.WebMotorsCrawler.ParseFipePage | webmotors_crawler.py:85-223 | one more page processed, its record appended, exactly one counter up, invariant kept |
| Webmotors.WebMotorsCrawler.HandleError | webmotors_crawler.py:225-240 | the error is appended with the request URL and its configuration if any, one more failure, invariant kept |
| Webmotors.WebMotorsCrawler.Fail | webmotors_crawler.py:214-222 | one more failure and one more record, success count unchanged |
| Fipe.FirstHondaCode | fipe_crawler.py:15-21 | the code of the first brand named like "honda", every earlier brand not so named; none exactly when no brand is |
| Fipe.FirstHondaCodeIgnoresLater | fipe_crawler.py:18-21 | brands after a match do not change the code |
| Fipe.FindHonda | fipe_crawler.py:15-21 | the brand loop stops at that brand |
| Fipe.ParseMarcas | fipe_crawler.py:13-26 | a models request exactly when a code was found and is not empty, for that code |
| Fipe.MarcaId | fipe_crawler.py:38 | the brand code read from a URL is absent exactly when the URL has no '/' |
| Fipe.MarcaIdOfModelsUrl | fipe_crawler.py:25-38 | the code read back from the models URL of a code without '/' is that code |
| Fipe.CivicModels | fipe_crawler.py:35-37 | the kept models are all named like "civic" |
| Fipe.CivicModelsMembers | fipe_crawler.py:35-37 | a model is kept exactly when it is listed and named like "civic" |
| Fipe.CivicModelsConcat | fipe_crawler.py:35-44 | the filter keeps order and never stops early |
| Fipe.ParseModelos | fipe_crawler.py:28-44 | the model loop yields one years request per kept model, or the indexing error |
| Fipe.AnosRequestsFromModelsUrl | fipe_crawler.py:25-44 | for models fetched from the URL of brand id, every years request carries id |
| Fipe.ParseAnos | fipe_crawler.py:46-56 | exactly one details request per year |
| Fipe.DetalhesUrlExtendsAnos | fipe_crawler.py:41-54 | a details URL is the years URL, '/', and the year code, which is its last segment |
| Fipe.ParseAnosRequests | fipe_crawler.py:52-56 | the k-th request is for the k-th year under that years URL |
| Fipe.Get | fipe_crawler.py:63-70 | `get` gives a value exactly for a present key |
| Fipe.FieldOfParse | fipe_crawler.py:62-71 | each of the eight keys fills its own field |
| Fipe.ParseDetalhesOf | fipe_crawler.py:62-71 | a record read from the object written for it is the same record |
| Fipe.DetalhesOfParse | fipe_crawler.py:62-71 | the record holds the object restricted to the eight keys: other keys are ignored and no value changes |

## Left out

- Scrapy itself is not modelled: scheduling, the order in which priorities are served, callbacks as generators, errback wiring, retries, delays, cookies and headers. Requests are values.
- The home-page visit of the listing spider is left out. This is `start_requests` and `visitar_pagina_inicial` in `get-cars.py`, with their random sleep.
- The `start_requests` of the API spider is left out; it issues one fixed request.
- All logging, `print`, and the `closed` handlers are left out, as are the contents of the files written: the listing page copy, the JSON dump of `resultados`, and the debug copy of the first price page. Whether the listing page copy and the debug copy can be written is an input, because a failed write changes what the callback gives: no records for the listing page, the error record for the price page.
- CSS selection and JSON decoding are left out; their results are inputs.
- The title read at line 114 of `webmotors_crawler.py` is never used, so it is left out.
- The contents of the seed table are not modelled; it is data.
- Text.IsSpace, Text.LowerChar, Text.UpperChar: whitespace and letter case cover ASCII and Latin-1 only.
  - `ß`, which Python upper-cases to two letters, stays as it is.
  - `µ` (U+00B5), which Python upper-cases to the Greek capital mu (U+039C), stays as it is.
  - `\d` means the ASCII digits.
  - `\s` and `isspace` are Python's whitespace up to U+00FF.
- Webmotors.FullUrl: `urljoin` is modelled only as concatenation. With the base URL, which ends in '/', `urljoin` gives the concatenation when every segment of the path is non-empty and made only of ASCII letters, digits and '-'. For any other path `urljoin` may give something else (it resolves `.` and `..`, drops empty segments and an empty query, fragment or parameters, and strips control characters), and that is not modelled.
- Fipe.Entry: codes are the text they are written with in a URL. A numeric code `0`, which Python treats as false, is not modelled.
- CarCard.ExtractCarInfo: the `except` branch returning `{}` is not modelled. No step of the modelled extraction can raise on its inputs. Such an empty record would have no brand and would be dropped by the card filter.
- Webmotors.WebMotorsCrawler.ParseFipePage: the only exception modelled is a failed write of the debug copy. An exception between lines 195 and 211 would bump both `sucesso` and `falha`. No modelled step there can raise, so that gap is not represented.
- Missing keys in a configuration or a JSON entry are not modelled. They raise `KeyError` in the source, and every entry here has all its fields.
- CarTitle.SecondWords is a set. The source uses a list, which has the same members and is only used for membership.

=== FILE: car_card.dfy ===
/** The per-card extraction and the card filter of the marketplace listing
    spider. What the CSS selectors return for a card is given as input:
    an optional string per selector, and per image its `src`, `data-src`,
    `title` and `alt` attributes. */
module CarCard {
  import opened Wrappers
  import opened Text
  import CarTitle

  const SiteUrl: string := "https://www.webmotors.com.br"

  /** Where the spider asks again after a blocked listing page. */
  const RetryUrl: string := "https://www.webmotors.com.br/carros/estoque?o=1"

  /** The minimum body length, in bytes, of a listing page that is not
      treated as blocked. */
  const MinBodyLength: nat := 5000

  // ---------------------------------------------------------------------------
  // Candidate selectors

  /** A selector result Python treats as false: missing or empty. */
  predicate Falsy(o: Option<string>) {
    o.None? || o.value == ""
  }

  /** `a or b or ... or ""` over selector results: the first one that is
      present and non-empty, or "" when there is none. */
  function FirstNonEmpty(cands: seq<Option<string>>): (r: string)
    ensures r == "" ==> forall k | 0 <= k < |cands| :: Falsy(cands[k])
    ensures r != "" ==> exists k | 0 <= k < |cands| :: cands[k] == Some(r) && forall j | 0 <= j < k :: Falsy(cands[j])
    decreases |cands|
  {
    if cands == [] then ""
    else if !Falsy(cands[0]) then cands[0].value
    else
      var r := FirstNonEmpty(cands[1..]);
      assert r != "" ==> exists k | 1 <= k < |cands| :: cands[k] == Some(r) && forall j | 0 <= j < k :: Falsy(cands[j]) by {
        if r != "" {
          var k :| 0 <= k < |cands[1..]| && cands[1..][k] == Some(r) && forall j | 0 <= j < k :: Falsy(cands[1..][j]);
          assert cands[k + 1] == Some(r);
          assert forall j | 0 <= j < k + 1 :: Falsy(cands[j]) by {
            forall j | 0 <= j < k + 1 ensures Falsy(cands[j]) { if j > 0 { assert cands[j] == cands[1..][j - 1]; } }
          }
        }
      }
      r
  }

  // ---------------------------------------------------------------------------
  // Price and mileage

  /** `re.sub(r'[^\d]', '', s)`. */
  function DigitsOnly(s: string): (r: string)
    ensures AllDigits(r) && |r| <= |s|
    decreases |s|
  {
    if s == [] then [] else (if IsDigit(s[0]) then [s[0]] else []) + DigitsOnly(s[1..])
  }

  /** Cleaning a string that is already all digits changes nothing. */
  lemma {:induction false} DigitsOnlyOfDigits(s: string)
    requires AllDigits(s)
    ensures DigitsOnly(s) == s
    decreases |s|
  {
    if s != [] {
      DigitsOnlyOfDigits(s[1..]);
      assert [s[0]] + s[1..] == s;
    }
  }

  /** Cleaning is idempotent. */
  lemma DigitsOnlyIdempotent(s: string)
    ensures DigitsOnly(DigitsOnly(s)) == DigitsOnly(s)
  {
    DigitsOnlyOfDigits(DigitsOnly(s));
  }

  /** Cleaning works piecewise, so the digits keep their order. */
  lemma {:induction false} DigitsOnlyConcat(a: string, b: string)
    ensures DigitsOnly(a + b) == DigitsOnly(a) + DigitsOnly(b)
    decreases |a|
  {
    if a != [] {
      assert (a + b)[1..] == a[1..] + b;
      DigitsOnlyConcat(a[1..], b);
    } else {
      assert a + b == b;
    }
  }

  /** Every digit of the input is kept as often as it occurs, and nothing
      else is. */
  lemma {:induction false} DigitsOnlyCounts(s: string, c: char)
    ensures multiset(DigitsOnly(s))[c] == if IsDigit(c) then multiset(s)[c] else 0
    decreases |s|
  {
    if s != [] {
      DigitsOnlyCounts(s[1..], c);
      assert s == [s[0]] + s[1..];
      assert multiset(s) == multiset([s[0]]) + multiset(s[1..]);
    }
  }

  /** The price of a card: the digits of the price text, "" when there is
      none. */
  function CleanPrice(raw: Option<string>): string {
    DigitsOnly(raw.GetOr(""))
  }

  /** The mileage of a card: absent when the text is missing or empty,
      otherwise its digits. */
  function CleanKm(text: Option<string>): (r: Option<string>)
    ensures r.None? <==> Falsy(text)
    ensures r.Some? ==> r.value == DigitsOnly(text.value)
  {
    var t := text.GetOr("");
    if t != "" then Some(DigitsOnly(t)) else None
  }

  lemma PriceExampleText(s: string)
    requires s == "R$ 45.230,00"
    ensures s == "R$ " + ("45" + ("." + ("230" + ("," + "00"))))
  {
  }

  lemma PriceExampleSeparators()
    ensures DigitsOnly("R$ ") == [] && DigitsOnly(".") == [] && DigitsOnly(",") == []
  {
  }

  lemma PriceExampleDigits()
    ensures DigitsOnly("45") == "45" && DigitsOnly("230") == "230" && DigitsOnly("00") == "00"
  {
  }

  /** Cleaning skips a piece without digits. */
  lemma DigitsOnlySkip(a: string, b: string)
    requires DigitsOnly(a) == []
    ensures DigitsOnly(a + b) == DigitsOnly(b)
  {
    DigitsOnlyConcat(a, b);
  }

  /** Cleaning keeps a piece of digits. */
  lemma DigitsOnlyKeep(a: string, b: string)
    requires DigitsOnly(a) == a
    ensures DigitsOnly(a + b) == a + DigitsOnly(b)
  {
    DigitsOnlyConcat(a, b);
  }

  /** "R$ 45.230,00" is cleaned to "4523000". */
  lemma ExamplePrice(s: string)
    requires s == "R$ 45.230,00"
    ensures CleanPrice(Some(s)) == "4523000"
  {
    PriceExampleText(s);
    PriceExampleSeparators();
    PriceExampleDigits();
    DigitsOnlySkip(",", "00");
    DigitsOnlyKeep("230", "," + "00");
    DigitsOnlySkip(".", "230" + ("," + "00"));
    DigitsOnlyKeep("45", "." + ("230" + ("," + "00")));
    DigitsOnlySkip("R$ ", "45" + ("." + ("230" + ("," + "00"))));
    assert "45" + ("230" + "00") == "4523000";
  }

  // ---------------------------------------------------------------------------
  // Year

  predicate FourDigitsAt(s: string, i: int) {
    0 <= i && i + 4 <= |s| && AllDigits(s[i..i + 4])
  }

  /** The first position at or after `i` where four digits start. */
  function FindYearFrom(s: string, i: nat): (r: Option<nat>)
    requires i <= |s|
    ensures r.Some? ==> i <= r.value && FourDigitsAt(s, r.value)
    ensures forall j | i <= j && (r.None? || j < r.value) :: !FourDigitsAt(s, j)
    decreases |s| - i
  {
    if i + 4 > |s| then None
    else if FourDigitsAt(s, i) then Some(i)
    else FindYearFrom(s, i + 1)
  }

  /** `re.search(r'(\d{4})', text)`: the leftmost four consecutive digits,
      absent when the text has none. */
  function Year(text: Option<string>): (r: Option<string>)
    ensures r.Some? ==> |r.value| == 4 && AllDigits(r.value)
  {
    var s := text.GetOr("");
    match FindYearFrom(s, 0)
    case None => None
    case Some(i) => Some(s[i..i + 4])
  }

  /** The year found is the leftmost run of four digits: it occurs in the
      text, and no earlier position starts four digits. A text without four
      consecutive digits has no year. */
  lemma YearIsLeftmost(s: string)
    ensures Year(Some(s)).Some? ==>
      exists i :: FourDigitsAt(s, i) && s[i..i + 4] == Year(Some(s)).value && (forall j | 0 <= j < i :: !FourDigitsAt(s, j))
    ensures Year(Some(s)).None? <==> forall j :: !FourDigitsAt(s, j)
  {
    var r := FindYearFrom(s, 0);
    if r.Some? {
      assert FourDigitsAt(s, r.value) && s[r.value..r.value + 4] == Year(Some(s)).value;
    }
  }

  // ---------------------------------------------------------------------------
  // Links

  /** The ad link: a non-empty link that does not start with "http" is
      prefixed with the site address. */
  function NormaliseLink(href: Option<string>): (r: string)
    ensures r == "" <==> Falsy(href)
    ensures r != "" ==> StartsWith(r, "http")
    ensures !Falsy(href) && StartsWith(href.value, "http") ==> r == href.value
    ensures !Falsy(href) && !StartsWith(href.value, "http") ==> r == SiteUrl + href.value
  {
    var link := href.GetOr("");
    if link != "" && !StartsWith(link, "http") then
      assert (SiteUrl + link)[..4] == SiteUrl[..4];
      SiteUrl + link
    else link
  }

  /** Normalising a normalised link changes nothing. */
  lemma NormaliseLinkIdempotent(href: Option<string>)
    ensures NormaliseLink(Some(NormaliseLink(href))) == NormaliseLink(href)
  {
  }

  // ---------------------------------------------------------------------------
  // Images

  /** The attributes of one `img` element of a card. */
  datatype Img = Img(src: Option<string>, dataSrc: Option<string>, title: Option<string>, alt: Option<string>)

  /** One kept image: its absolute address and its raw title and alt. */
  datatype ImageInfo = ImageInfo(url: string, title: Option<string>, alt: Option<string>)

  /** `src or data-src`; "" when neither gives an address. */
  function ImageUrl(img: Img): string {
    if !Falsy(img.src) then img.src.value else img.dataSrc.GetOr("")
  }

  /** An image is kept when it has an address that neither ends in ".gif"
      nor contains "placeholder" in any letter case. */
  predicate KeepsImage(url: string) {
    url != "" && !EndsWith(url, ".gif") && !Contains(Lower(url), "placeholder")
  }

  /** The image is kept. */
  predicate Kept(img: Img) {
    KeepsImage(ImageUrl(img))
  }

  /** A protocol-relative address gets "https:"; any other address without
      an http:// or https:// prefix gets the site address. */
  function AbsoluteImageUrl(url: string): (r: string)
    ensures StartsWith(r, "http://") || StartsWith(r, "https://")
    ensures StartsWith(url, "http://") || StartsWith(url, "https://") ==> r == url
    ensures StartsWith(url, "//") ==> r == "https:" + url
    ensures !StartsWith(url, "//") && !StartsWith(url, "http://") && !StartsWith(url, "https://") ==>
      r == SiteUrl + url
  {
    if StartsWith(url, "//") then
      assert url[0] == '/';
      assert ("https:" + url)[..8] == "https:" + url[..2];
      "https:" + url
    else if !(StartsWith(url, "http://") || StartsWith(url, "https://")) then
      assert (SiteUrl + url)[..8] == SiteUrl[..8];
      SiteUrl + url
    else url
  }

  function InfoOf(img: Img): ImageInfo {
    ImageInfo(AbsoluteImageUrl(ImageUrl(img)), img.title, img.alt)
  }

  /** The image list of a card, as the loop over the images builds it. */
  function ImagesOf(imgs: seq<Img>): seq<ImageInfo> {
    if imgs == [] then []
    else
      var n := |imgs| - 1;
      ImagesOf(imgs[..n]) + (if Kept(imgs[n]) then [InfoOf(imgs[n])] else [])
  }

  /** The positions of the kept images: in increasing order, each one kept,
      and every kept position present. */
  function KeptIndices(imgs: seq<Img>): (r: seq<nat>)
    ensures forall k | 0 <= k < |r| :: r[k] < |imgs| && Kept(imgs[r[k]])
    ensures forall j, k | 0 <= j < k < |r| :: r[j] < r[k]
    ensures forall i | 0 <= i < |imgs| && Kept(imgs[i]) :: i in r
  {
    if imgs == [] then []
    else
      var n := |imgs| - 1;
      var front := KeptIndices(imgs[..n]);
      assert forall i | 0 <= i < n :: imgs[i] == imgs[..n][i];
      front + (if Kept(imgs[n]) then [n] else [])
  }

  /** The image list holds exactly the kept images, in their input order,
      each with its absolute address. */
  lemma {:induction false} ImagesOfKept(imgs: seq<Img>)
    ensures |ImagesOf(imgs)| == |KeptIndices(imgs)|
    ensures forall k | 0 <= k < |ImagesOf(imgs)| :: ImagesOf(imgs)[k] == InfoOf(imgs[KeptIndices(imgs)[k]])
    decreases |imgs|
  {
    if imgs != [] {
      var n := |imgs| - 1;
      ImagesOfKept(imgs[..n]);
      var front := KeptIndices(imgs[..n]);
      var before := ImagesOf(imgs[..n]);
      var all := ImagesOf(imgs);
      var indices := KeptIndices(imgs);
      assert all == before + (if Kept(imgs[n]) then [InfoOf(imgs[n])] else []);
      assert indices == front + (if Kept(imgs[n]) then [n] else []);
      forall k | 0 <= k < |all|
        ensures all[k] == InfoOf(imgs[indices[k]])
      {
        if k < |before| {
          assert all[k] == before[k] && indices[k] == front[k];
          assert imgs[front[k]] == imgs[..n][front[k]];
        }
      }
    }
  }

  /** Every kept image address is absolute. */
  lemma ImageUrlsAbsolute(imgs: seq<Img>)
    ensures forall k | 0 <= k < |ImagesOf(imgs)| ::
      StartsWith(ImagesOf(imgs)[k].url, "http://") || StartsWith(ImagesOf(imgs)[k].url, "https://")
  {
    ImagesOfKept(imgs);
  }

  /** The loop that builds the image list of a card. */
  method CollectImages(imgs: seq<Img>) returns (imagens: seq<ImageInfo>)
    ensures imagens == ImagesOf(imgs)
  {
    imagens := [];
    var i := 0;
    while i < |imgs|
      invariant 0 <= i <= |imgs|
      invariant imagens == ImagesOf(imgs[..i])
    {
      var img := imgs[i];
      var url := ImageUrl(img);
      if url != "" {
        if KeepsImage(url) {
          imagens := imagens + [ImageInfo(AbsoluteImageUrl(url), img.title, img.alt)];
        }
      }
      assert imgs[..i + 1][..i] == imgs[..i];
      i := i + 1;
    }
    assert imgs[..i] == imgs;
  }

  // ---------------------------------------------------------------------------
  // Title and alt scan over the images

  /** The text taken from the images so far: the title (brand and model)
      and the alt (vehicle description). */
  datatype ImageText = ImageText(marcaModelo: Option<string>, tipoVeiculo: Option<string>)

  const NoImageText: ImageText := ImageText(None, None)

  /** An attribute is used when, stripped, it is longer than three
      characters. */
  predicate Usable(a: Option<string>) {
    a.Some? && |Strip(a.value)| > 3
  }

  function Take(a: Option<string>, previous: Option<string>): Option<string> {
    if Usable(a) then Some(Strip(a.value)) else previous
  }

  predicate Complete(t: ImageText) {
    t.marcaModelo.Some? && t.tipoVeiculo.Some?
  }

  function ScanStep(img: Img, t: ImageText): ImageText {
    ImageText(Take(img.title, t.marcaModelo), Take(img.alt, t.tipoVeiculo))
  }

  /** The scan over the images: each image may overwrite the title and the
      alt taken so far, and the scan stops after the first image at which
      both are set. */
  function Scan(imgs: seq<Img>, t: ImageText): ImageText
    decreases |imgs|
  {
    if imgs == [] then t
    else
      var next := ScanStep(imgs[0], t);
      if Complete(next) then next else Scan(imgs[1..], next)
  }

  /** The scan loop of the card extraction. */
  method ScanImageText(imgs: seq<Img>) returns (t: ImageText)
    ensures t == Scan(imgs, NoImageText)
  {
    var marcaModelo: Option<string> := None;
    var tipoVeiculo: Option<string> := None;
    var i := 0;
    while i < |imgs|
      invariant 0 <= i <= |imgs|
      invariant !Complete(ImageText(marcaModelo, tipoVeiculo))
      invariant Scan(imgs[i..], ImageText(marcaModelo, tipoVeiculo)) == Scan(imgs, NoImageText)
    {
      var img := imgs[i];
      assert imgs[i..][1..] == imgs[i + 1..];
      if Usable(img.title) {
        marcaModelo := Some(Strip(img.title.value));
      }
      if Usable(img.alt) {
        tipoVeiculo := Some(Strip(img.alt.value));
      }
      if marcaModelo.Some? && tipoVeiculo.Some? {
        return ImageText(marcaModelo, tipoVeiculo);
      }
      i := i + 1;
    }
    t := ImageText(marcaModelo, tipoVeiculo);
  }

  /** A value the scan returns is either the one it started with or the
      stripped title (alt) of one of the images, longer than three
      characters. */
  lemma {:induction false} ScanValuesFromImages(imgs: seq<Img>, t: ImageText)
    ensures var r := Scan(imgs, t);
      (r.marcaModelo == t.marcaModelo ||
        exists k | 0 <= k < |imgs| :: Usable(imgs[k].title) && r.marcaModelo == Some(Strip(imgs[k].title.value))) &&
      (r.tipoVeiculo == t.tipoVeiculo ||
        exists k | 0 <= k < |imgs| :: Usable(imgs[k].alt) && r.tipoVeiculo == Some(Strip(imgs[k].alt.value)))
    decreases |imgs|
  {
    if imgs != [] {
      var next := ScanStep(imgs[0], t);
      if !Complete(next) {
        ScanValuesFromImages(imgs[1..], next);
        var r := Scan(imgs, t);
        if r.marcaModelo != next.marcaModelo {
          var k :| 0 <= k < |imgs[1..]| && Usable(imgs[1..][k].title) && r.marcaModelo == Some(Strip(imgs[1..][k].title.value));
          assert imgs[k + 1] == imgs[1..][k];
        }
        if r.tipoVeiculo != next.tipoVeiculo {
          var k :| 0 <= k < |imgs[1..]| && Usable(imgs[1..][k].alt) && r.tipoVeiculo == Some(Strip(imgs[1..][k].alt.value));
          assert imgs[k + 1] == imgs[1..][k];
        }
      }
    }
  }

  /** A scan that has not stopped within `p` carries on into `q` from where
      it was. */
  lemma {:induction false} ScanContinues(p: seq<Img>, q: seq<Img>, t: ImageText)
    requires !Complete(Scan(p, t))
    ensures Scan(p + q, t) == Scan(q, Scan(p, t))
    decreases |p|
  {
    if p != [] {
      assert (p + q)[1..] == p[1..] + q;
      ScanContinues(p[1..], q, ScanStep(p[0], t));
    } else {
      assert p + q == q;
    }
  }

  /** Once both values are set the scan stops: images after that point are
      never looked at. */
  lemma {:induction false} ScanStops(p: seq<Img>, q: seq<Img>, t: ImageText)
    requires !Complete(t) && Complete(Scan(p, t))
    ensures Scan(p + q, t) == Scan(p, t)
    decreases |p|
  {
    assert p != [];
    assert (p + q)[1..] == p[1..] + q;
    var next := ScanStep(p[0], t);
    if !Complete(next) {
      ScanStops(p[1..], q, next);
    }
  }

  /** A later image overwrites: if the scan has not stopped before an image,
      the title taken is that image's when its title is usable, and the
      title taken so far otherwise; the same holds for the alt. */
  lemma ScanLaterOverwrites(p: seq<Img>, img: Img)
    requires !Complete(Scan(p, NoImageText))
    ensures var before := Scan(p, NoImageText);
      var after := Scan(p + [img], NoImageText);
      after.marcaModelo == (if Usable(img.title) then Some(Strip(img.title.value)) else before.marcaModelo) &&
      after.tipoVeiculo == (if Usable(img.alt) then Some(Strip(img.alt.value)) else before.tipoVeiculo)
  {
    ScanContinues(p, [img], NoImageText);
  }

  // ---------------------------------------------------------------------------
  // One card

  /** What the selectors give for one card. `descriptions` holds the three
      description selectors in the order they are tried. */
  datatype Card = Card(
    images: seq<Img>,
    heading: Option<string>,
    descriptions: seq<Option<string>>,
    price: Option<string>,
    year: Option<string>,
    km: Option<string>,
    location: Option<string>,
    href: Option<string>)

  datatype CarInfo = CarInfo(
    marca: Option<string>,
    modelo: Option<string>,
    descricao: string,
    preco: string,
    ano: Option<string>,
    km: Option<string>,
    localizacao: string,
    link: string,
    imagens: seq<ImageInfo>,
    imageTitle: Option<string>,
    imageAlt: Option<string>)

  /** The title used when the images gave no brand: the image title, else
      the heading, stripped. */
  function CardTitle(card: Card, text: ImageText): string {
    Strip(FirstNonEmpty([text.marcaModelo, card.heading]))
  }

  /** Brand and model: from the image title when there is one, otherwise
      from the card title when it is not blank. */
  function BrandAndModel(card: Card, text: ImageText): (Option<string>, Option<string>) {
    var fromImage := if !Falsy(text.marcaModelo) then CarTitle.ExtractMarcaModelo(text.marcaModelo) else (None, None);
    var title := CardTitle(card, text);
    if Falsy(fromImage.0) && Falsy(fromImage.1) && title != "" then CarTitle.ExtractMarcaModelo(Some(title))
    else fromImage
  }

  /** The record extracted from a card. */
  function CarInfoOf(card: Card): CarInfo {
    var text := Scan(card.images, NoImageText);
    var brandModel := BrandAndModel(card, text);
    CarInfo(
      brandModel.0, brandModel.1,
      Strip(FirstNonEmpty([text.tipoVeiculo] + card.descriptions)),
      CleanPrice(card.price),
      Year(card.year),
      CleanKm(card.km),
      Strip(card.location.GetOr("")),
      NormaliseLink(card.href),
      ImagesOf(card.images),
      text.marcaModelo, text.tipoVeiculo)
  }

  /** Brand and model of a card: from the image title first, and from the
      card title only when that gave neither. */
  method CardBrandAndModel(card: Card, text: ImageText) returns (brandModel: (Option<string>, Option<string>))
    ensures brandModel == BrandAndModel(card, text)
  {
    brandModel := (None, None);
    if !Falsy(text.marcaModelo) {
      brandModel := CarTitle.ExtractMarcaModelo(text.marcaModelo);
    }
    var title := Strip(FirstNonEmpty([text.marcaModelo, card.heading]));
    if Falsy(brandModel.0) && Falsy(brandModel.1) && title != "" {
      brandModel := CarTitle.ExtractMarcaModelo(Some(title));
    }
  }

  /** The extraction of one card. */
  method ExtractCarInfo(card: Card) returns (info: CarInfo)
    ensures info == CarInfoOf(card)
  {
    var text := ScanImageText(card.images);
    var brandModel := CardBrandAndModel(card, text);
    var descricao := Strip(FirstNonEmpty([text.tipoVeiculo] + card.descriptions));
    var preco := CleanPrice(card.price);
    var ano := Year(card.year);
    var km := CleanKm(card.km);
    var localizacao := Strip(card.location.GetOr(""));
    var link := NormaliseLink(card.href);
    var imagens := CollectImages(card.images);
    info := CarInfo(brandModel.0, brandModel.1, descricao, preco, ano, km, localizacao, link, imagens,
                    text.marcaModelo, text.tipoVeiculo);
  }

  /** A stripped value that is not empty is not blank either. */
  lemma StrippedNotBlank(s: string)
    requires s != [] && Strip(s) == s
    ensures !AllSpace(s)
  {
    assert !IsSpace(s[0]);
  }

  /** A card has a brand exactly when its title (the image title, else the
      heading) is not blank, and a brand, when found, is never empty. */
  lemma BrandIffTitle(card: Card)
    ensures var info := CarInfoOf(card);
      (info.marca.Some? <==> CardTitle(card, Scan(card.images, NoImageText)) != "") &&
      (info.marca.Some? ==> info.marca.value != "")
  {
    var text := Scan(card.images, NoImageText);
    var title := CardTitle(card, text);
    ScanValuesFromImages(card.images, NoImageText);
    if !Falsy(text.marcaModelo) {
      var v := text.marcaModelo.value;
      assert Strip(v) == v by {
        var k :| 0 <= k < |card.images| && Usable(card.images[k].title) && text.marcaModelo == Some(Strip(card.images[k].title.value));
        StripIdempotent(card.images[k].title.value);
      }
      StrippedNotBlank(v);
      CarTitle.ExtractAbsentIff(text.marcaModelo);
      CarTitle.ExtractRoundTrip(v);
      assert title == v;
    } else if title != "" {
      StrippedNotBlank(title) by { StripIdempotent(FirstNonEmpty([text.marcaModelo, card.heading])); }
      CarTitle.ExtractAbsentIff(Some(title));
      CarTitle.ExtractRoundTrip(title);
    }
  }

  // ---------------------------------------------------------------------------
  // A listing page

  /** What the spider sees of a listing page: status, text, body length in
      bytes, the cards the main selector finds and those the fallback
      selector finds. */
  datatype ListingPage = ListingPage(status: int, text: string, bodyLength: nat, cards: seq<Card>, fallbackCards: seq<Card>)

  /** The page is treated as a block: status 403, "acesso negado" in the
      text, or a body shorter than 5000 bytes. */
  predicate IsBlocked(page: ListingPage) {
    page.status == 403 || Contains(Lower(page.text), "acesso negado") || page.bodyLength < MinBodyLength
  }

  /** The cards parsed: the main selector's, or the fallback's when the main
      one finds none. */
  function CardsToParse(page: ListingPage): seq<Card> {
    if page.cards != [] then page.cards else page.fallbackCards
  }

  predicate HasBrand(info: CarInfo) {
    !Falsy(info.marca)
  }

  /** `f` applied to each element, in order. */
  function Map<A, B>(f: A -> B, xs: seq<A>): (r: seq<B>)
    ensures |r| == |xs|
    ensures forall k | 0 <= k < |xs| :: r[k] == f(xs[k])
  {
    if xs == [] then []
    else
      var front := xs[..|xs| - 1];
      assert forall k | 0 <= k < |front| :: front[k] == xs[k];
      Map(f, front) + [f(xs[|xs| - 1])]
  }

  /** Mapping one more element of `xs` appends its image. */
  lemma MapPrefixSnoc<A, B>(f: A -> B, xs: seq<A>, i: nat)
    requires i < |xs|
    ensures Map(f, xs[..i + 1]) == Map(f, xs[..i]) + [f(xs[i])]
  {
    assert xs[..i + 1][..i] == xs[..i];
  }

  /** The records extracted from the cards, in order. */
  function CarInfos(cards: seq<Card>): (r: seq<CarInfo>)
    ensures |r| == |cards|
  {
    Map(CarInfoOf, cards)
  }

  /** The k-th record is the record of the k-th card. */
  lemma CarInfosAt(cards: seq<Card>, k: nat)
    requires k < |cards|
    ensures CarInfos(cards)[k] == CarInfoOf(cards[k])
  {
  }

  /** The records with a brand, in order. */
  function Branded(infos: seq<CarInfo>): (r: seq<CarInfo>)
    ensures |r| <= |infos|
    ensures forall k | 0 <= k < |r| :: HasBrand(r[k]) && r[k] in infos
    ensures forall k | 0 <= k < |infos| && HasBrand(infos[k]) :: infos[k] in r
  {
    if infos == [] then []
    else
      var n := |infos| - 1;
      var front := Branded(infos[..n]);
      assert forall k | 0 <= k < n :: infos[k] == infos[..n][k];
      front + (if HasBrand(infos[n]) then [infos[n]] else [])
  }

  lemma BrandedSnoc(infos: seq<CarInfo>, x: CarInfo)
    ensures Branded(infos + [x]) == Branded(infos) + (if HasBrand(x) then [x] else [])
  {
    assert (infos + [x])[..|infos|] == infos;
  }

  /** One more card extends the branded records by its record when that
      has a brand, and leaves them as they are otherwise. */
  lemma YieldStep(cards: seq<Card>, i: nat, items: seq<CarInfo>, info: CarInfo)
    requires i < |cards| && items == Branded(CarInfos(cards[..i])) && info == CarInfoOf(cards[i])
    ensures (if HasBrand(info) then items + [info] else items) == Branded(CarInfos(cards[..i + 1]))
  {
    MapPrefixSnoc(CarInfoOf, cards, i);
    BrandedSnoc(CarInfos(cards[..i]), info);
  }

  /** What one listing page gives: the retry request, the records yielded,
      or the error that ended the callback before any record was yielded. */
  datatype ParseOutput = Retry(url: string) | Cars(items: seq<CarInfo>) | Raised(error: string)

  /** The listing spider and its count of extracted cars. */
  class CarsSpider {
    var totalCarros: nat

    constructor()
      ensures totalCarros == 0
    {
      totalCarros := 0;
    }

    /** Parses one listing page, given the error that writing its copy
        raised, if any: a blocked page yields only the retry request; a page
        whose copy could not be written ends the callback with that error
        before any card is read; otherwise every card with a brand is
        yielded and counted. */
    method Parse(page: ListingPage, writeError: Option<string>) returns (out: ParseOutput)
      modifies this
      ensures IsBlocked(page) ==> out == Retry(RetryUrl)
      ensures !IsBlocked(page) && writeError.Some? ==> out == Raised(writeError.value)
      ensures !IsBlocked(page) && writeError.None? ==> out == Cars(Branded(CarInfos(CardsToParse(page))))
      ensures !out.Cars? ==> totalCarros == old(totalCarros)
      ensures out.Cars? ==> totalCarros == old(totalCarros) + |out.items|
    {
      if IsBlocked(page) {
        return Retry(RetryUrl);
      }
      if writeError.Some? {
        // The copy of the page could not be written: the exception leaves
        // the callback.
        return Raised(writeError.value);
      }
      var cards := page.cards;
      if cards == [] {
        cards := page.fallbackCards;
      }
      var items := YieldBranded(cards);
      out := Cars(items);
    }

    /** The loop over the cards: each card's record is yielded and counted
        when it has a brand. */
    method YieldBranded(cards: seq<Card>) returns (items: seq<CarInfo>)
      modifies this
      ensures items == Branded(CarInfos(cards))
      ensures totalCarros == old(totalCarros) + |items|
    {
      items := [];
      var i := 0;
      while i < |cards|
        invariant 0 <= i <= |cards|
        invariant items == Branded(CarInfos(cards[..i]))
        invariant totalCarros == old(totalCarros) + |items|
      {
        var info := ExtractCarInfo(cards[i]);
        YieldStep(cards, i, items, info);
        if HasBrand(info) {
          totalCarros := totalCarros + 1;
          items := items + [info];
        }
        i := i + 1;
      }
      assert cards[..i] == cards;
    }
  }
}

=== FILE: car_title.dfy ===
/** Splitting a listing title into brand ("marca") and model ("modelo"),
    as the marketplace listing spider does: the title is stripped,
    upper-cased and split on whitespace; the first token is the brand,
    except that a known first word of a two-word brand followed by a known
    second word makes both tokens the brand; the rest is the model. */
module CarTitle {
  import opened Wrappers
  import opened Text

  /** The compound-brand table. Only its keys are consulted; its values are
      never part of a result. */
  const CompoundBrands: map<string, string> :=
    map["LAND" := "LAND ROVER", "ALFA" := "ALFA ROMEO", "MERCEDES" := "MERCEDES-BENZ", "GREAT" := "GREAT WALL"]

  /** The second words accepted after a key of `CompoundBrands`. The two
      lists are checked independently of each other. */
  const SecondWords: set<string> := {"ROVER", "ROMEO", "BENZ", "WALL"}

  /** The tokens of the normalised title. */
  function TitleTokens(title: string): seq<string> {
    Tokens(Upper(Strip(title)))
  }

  /** The first two tokens form the brand. */
  predicate IsCompound(partes: seq<string>) {
    |partes| > 1 && partes[0] in CompoundBrands && partes[1] in SecondWords
  }

  /** The brand and the model of a title, both absent for a missing, empty
      or blank title. */
  function ExtractMarcaModelo(title: Option<string>): (r: (Option<string>, Option<string>))
    ensures r.0.Some? <==> r.1.Some?
    ensures r.0.Some? ==> r.0.value != ""
  {
    if title.None? || title.value == "" then (None, None)
    else
      var partes := TitleTokens(title.value);
      if partes == [] then (None, None)
      else if IsCompound(partes) then
        (Some(partes[0] + " " + partes[1]), Some(if |partes| > 2 then Join(partes[2..]) else ""))
      else
        (Some(partes[0]), Some(if |partes| > 1 then Join(partes[1..]) else ""))
  }

  /** Brand followed by the model, with one space between them when there is
      a model. */
  function Rejoined(marca: string, modelo: string): string {
    if modelo == "" then marca else marca + " " + modelo
  }

  /** A title yields nothing exactly when it is missing or whitespace only. */
  lemma ExtractAbsentIff(title: Option<string>)
    ensures ExtractMarcaModelo(title).0.None? <==> title.None? || AllSpace(title.value)
  {
    if title.Some? && title.value != "" {
      var s := Strip(title.value);
      StripSpec(title.value);
      TokensEmptyIff(Upper(s));
      UpperKeepsSpace(s);
      assert AllSpace(s) <==> s == [];
    }
  }

  lemma JoinFront(ts: seq<string>)
    requires |ts| >= 2
    ensures Join(ts) == ts[0] + " " + Join(ts[1..])
  {
  }

  /** Re-joining brand and model gives the normalised title, and splitting
      brand and model again gives back exactly the title's tokens, so no
      token is lost, duplicated or rewritten. */
  lemma ExtractRoundTrip(title: string)
    requires !AllSpace(title)
    ensures ExtractMarcaModelo(Some(title)).0.Some?
    ensures var (marca, modelo) := ExtractMarcaModelo(Some(title));
      Rejoined(marca.value, modelo.value) == Join(TitleTokens(title)) &&
      Tokens(marca.value) + Tokens(modelo.value) == TitleTokens(title)
  {
    ExtractAbsentIff(Some(title));
    var p := TitleTokens(title);
    var k := if IsCompound(p) then 2 else 1;
    var (marca, modelo) := ExtractMarcaModelo(Some(title));
    if k == 2 {
      assert Join(p[..2]) == p[0] + " " + p[1];
    }
    assert marca.value == Join(p[..k]);
    assert modelo.value == Model(p, k);
    SplitRoundTrip(p, k);
  }

  /** The words after the first `k`, joined; "" when there are none. */
  function Model(p: seq<string>, k: nat): string
    requires k <= |p|
  {
    if |p| > k then Join(p[k..]) else ""
  }

  /** Splitting a list of words after the first `k` and joining each part
      loses nothing. */
  lemma SplitRoundTrip(p: seq<string>, k: nat)
    requires AreWords(p) && 1 <= k <= |p|
    ensures Rejoined(Join(p[..k]), Model(p, k)) == Join(p)
    ensures Tokens(Join(p[..k])) + Tokens(Model(p, k)) == p
  {
    TokensOfJoin(p[..k]);
    if |p| > k {
      TokensOfJoin(p[k..]);
      JoinEmptyIff(p[k..]);
      JoinSplit(p, k);
    } else {
      assert p == p[..k];
    }
    assert p == p[..k] + p[k..];
  }

  /** Joining a prefix and a suffix separately and then joining the two with
      a space is joining the whole. */
  lemma {:induction false} JoinSplit(ts: seq<string>, k: nat)
    requires 0 < k < |ts|
    ensures Join(ts) == Join(ts[..k]) + " " + Join(ts[k..])
    decreases k
  {
    if k > 1 {
      JoinSplit(ts[1..], k - 1);
      assert ts[1..][..k - 1] == ts[1..k];
      assert ts[1..][k - 1..] == ts[k..];
      assert ts[..k][1..] == ts[1..k];
      JoinFront(ts[..k]);
    } else {
      assert ts[..1] == [ts[0]];
      assert ts[1..] == ts[k..];
    }
  }

  /** The brand is two tokens exactly when the first is a key of the
      compound table and the second is one of the accepted second words;
      otherwise it is the first token alone. */
  lemma BrandRule(title: string)
    requires !AllSpace(title)
    ensures ExtractMarcaModelo(Some(title)).0.Some?
    ensures var p := TitleTokens(title);
      var n := |Tokens(ExtractMarcaModelo(Some(title)).0.value)|;
      n <= |p| && Tokens(ExtractMarcaModelo(Some(title)).0.value) == p[..n] &&
      (n == 2 <==> IsCompound(p)) && (n == 1 <==> !IsCompound(p))
  {
    ExtractRoundTrip(title);
    var p := TitleTokens(title);
    var marca := ExtractMarcaModelo(Some(title)).0.value;
    assert AreWords(p);
    if IsCompound(p) {
      TokensOfJoin(p[..2]);
      assert Join(p[..2]) == marca;
    } else {
      TokensOfWord(p[0]);
      assert p[..1] == [p[0]];
    }
  }

  /** A title whose upper-cased form is the given words joined by single
      spaces has exactly those words as tokens. */
  lemma TitleTokensOfWords(t: string, ws: seq<string>)
    requires Strip(t) == t && AreWords(ws) && Upper(t) == Join(ws)
    ensures TitleTokens(t) == ws
  {
    TokensOfJoin(ws);
  }

  lemma SplitThreeCompound(t: string, ws: seq<string>)
    requires t != [] && TitleTokens(t) == ws && |ws| == 3 && IsCompound(ws)
    ensures ExtractMarcaModelo(Some(t)) == (Some(ws[0] + " " + ws[1]), Some(ws[2]))
  {
    assert ws[2..] == [ws[2]];
  }

  lemma SplitThreeSimple(t: string, ws: seq<string>)
    requires t != [] && TitleTokens(t) == ws && |ws| == 3 && !IsCompound(ws)
    ensures ExtractMarcaModelo(Some(t)) == (Some(ws[0]), Some(ws[1] + " " + ws[2]))
  {
    var m := ws[1..];
    assert m[1..] == [ws[2]];
    assert Join(m) == ws[1] + " " + Join([ws[2]]);
  }

  lemma JoinThree(ws: seq<string>)
    requires |ws| == 3
    ensures Join(ws) == ws[0] + " " + (ws[1] + " " + ws[2])
  {
    assert ws[1..][1..] == [ws[2]];
    assert Join(ws[1..]) == ws[1] + " " + ws[2];
  }

  lemma LandRoverStripped(t: string)
    requires t == "land rover defender"
    ensures Strip(t) == t
  {
    StripUnchanged(t);
  }

  lemma LandRoverUpper(t: string)
    requires t == "land rover defender"
    ensures Upper(t) == "LAND ROVER DEFENDER"
  {
  }

  lemma LandRoverWords(ws: seq<string>)
    requires ws == ["LAND", "ROVER", "DEFENDER"]
    ensures Join(ws) == "LAND ROVER DEFENDER" && AreWords(ws) && IsCompound(ws)
  {
    JoinThree(ws);
    assert "LAND" in CompoundBrands;
    assert "ROVER" in SecondWords;
  }

  /** A lower-case two-word brand: "land rover defender" gives brand
      "LAND ROVER" and model "DEFENDER". */
  lemma ExampleLandRover(t: string, ws: seq<string>)
    requires t == "land rover defender" && ws == ["LAND", "ROVER", "DEFENDER"]
    ensures TitleTokens(t) == ws
    ensures ExtractMarcaModelo(Some(t)) == (Some("LAND ROVER"), Some("DEFENDER"))
  {
    LandRoverStripped(t);
    LandRoverUpper(t);
    LandRoverWords(ws);
    TitleTokensOfWords(t, ws);
    SplitThreeCompound(t, ws);
    assert ws[0] + " " + ws[1] == "LAND ROVER";
  }

  lemma ToyotaStripped(t: string)
    requires t == "Toyota Corolla XEI"
    ensures Strip(t) == t
  {
    StripUnchanged(t);
  }

  lemma ToyotaUpper(t: string)
    requires t == "Toyota Corolla XEI"
    ensures Upper(t) == "TOYOTA COROLLA XEI"
  {
  }

  lemma ToyotaWords(ws: seq<string>)
    requires ws == ["TOYOTA", "COROLLA", "XEI"]
    ensures Join(ws) == "TOYOTA COROLLA XEI" && AreWords(ws) && !IsCompound(ws)
  {
    JoinThree(ws);
    assert "TOYOTA" !in CompoundBrands;
  }

  /** A one-word brand: "Toyota Corolla XEI" gives brand "TOYOTA" and model
      "COROLLA XEI". */
  lemma ExampleToyota(t: string, ws: seq<string>)
    requires t == "Toyota Corolla XEI" && ws == ["TOYOTA", "COROLLA", "XEI"]
    ensures TitleTokens(t) == ws
    ensures ExtractMarcaModelo(Some(t)) == (Some("TOYOTA"), Some("COROLLA XEI"))
  {
    ToyotaStripped(t);
    ToyotaUpper(t);
    ToyotaWords(ws);
    TitleTokensOfWords(t, ws);
    SplitThreeSimple(t, ws);
    assert ws[1] + " " + ws[2] == "COROLLA XEI";
  }

  lemma MixedPairStripped(t: string)
    requires t == "LAND BENZ X"
    ensures Strip(t) == t
  {
    StripUnchanged(t);
  }

  lemma MixedPairUpper(t: string)
    requires t == "LAND BENZ X"
    ensures Upper(t) == "LAND BENZ X"
  {
  }

  lemma MixedPairWords(ws: seq<string>)
    requires ws == ["LAND", "BENZ", "X"]
    ensures Join(ws) == "LAND BENZ X" && AreWords(ws) && IsCompound(ws)
  {
    JoinThree(ws);
    assert "LAND" in CompoundBrands;
    assert "BENZ" in SecondWords;
  }

  /** The key list and the second-word list are independent: "LAND BENZ X"
      gives brand "LAND BENZ", a pair that names no real brand. */
  lemma ExampleMixedPair(t: string, ws: seq<string>)
    requires t == "LAND BENZ X" && ws == ["LAND", "BENZ", "X"]
    ensures TitleTokens(t) == ws
    ensures ExtractMarcaModelo(Some(t)) == (Some("LAND BENZ"), Some("X"))
  {
    MixedPairStripped(t);
    MixedPairUpper(t);
    MixedPairWords(ws);
    TitleTokensOfWords(t, ws);
    SplitThreeCompound(t, ws);
    assert ws[0] + " " + ws[1] == "LAND BENZ";
  }

  /** A blank title has no brand and no model. */
  lemma ExampleBlank(t: string)
    requires t == " \t "
    ensures ExtractMarcaModelo(Some(t)) == (None, None)
  {
    assert AllSpace(t);
    ExtractAbsentIff(Some(t));
  }
}

=== FILE: fipe.dfy ===
/** The FIPE API spider: a chain of dependent requests. The brand list
    gives the code of the first brand named like "honda"; that brand's model
    list gives one years request per model named like "civic"; each years
    list gives one details request per year; each details object becomes a
    vehicle record. */
module Fipe {
  import opened Wrappers
  import opened Text

  const MarcasUrl: string := "https://parallelum.com.br/fipe/api/v1/carros/marcas"

  /** An entry of a brand, model or year list: its name and its code, the
      code as the text it is written with in a URL. */
  datatype Entry = Entry(nome: string, codigo: string)

  /** The lower-cased name of `e` contains `word`. */
  predicate Names(e: Entry, word: string) {
    Contains(Lower(e.nome), word)
  }

  // ---------------------------------------------------------------------------
  // Brands

  /** The code of the first entry named like "honda". */
  function FirstHondaCode(marcas: seq<Entry>): (r: Option<string>)
    ensures r.None? <==> forall k | 0 <= k < |marcas| :: !Names(marcas[k], "honda")
    ensures r.Some? ==>
      exists k | 0 <= k < |marcas| ::
        Names(marcas[k], "honda") && r.value == marcas[k].codigo &&
        forall j | 0 <= j < k :: !Names(marcas[j], "honda")
  {
    if marcas == [] then None
    else if Names(marcas[0], "honda") then Some(marcas[0].codigo)
    else
      var r := FirstHondaCode(marcas[1..]);
      assert forall k | 1 <= k < |marcas| :: marcas[k] == marcas[1..][k - 1];
      if r.Some? then
        var k :| 0 <= k < |marcas[1..]| && Names(marcas[1..][k], "honda") && r.value == marcas[1..][k].codigo &&
          forall j | 0 <= j < k :: !Names(marcas[1..][j], "honda");
        assert Names(marcas[k + 1], "honda") && forall j | 0 <= j < k + 1 :: !Names(marcas[j], "honda");
        r
      else r
  }

  /** Entries after a match do not change the code found. */
  lemma {:induction false} FirstHondaCodeIgnoresLater(a: seq<Entry>, b: seq<Entry>)
    requires FirstHondaCode(a).Some?
    ensures FirstHondaCode(a + b) == FirstHondaCode(a)
  {
    if !Names(a[0], "honda") {
      assert (a + b)[1..] == a[1..] + b;
      FirstHondaCodeIgnoresLater(a[1..], b);
    }
  }

  /** The loop over the brands, which stops at the first match. */
  method FindHonda(marcas: seq<Entry>) returns (hondaId: Option<string>)
    ensures hondaId == FirstHondaCode(marcas)
  {
    hondaId := None;
    var i := 0;
    while i < |marcas|
      invariant 0 <= i <= |marcas|
      invariant hondaId.None?
      invariant FirstHondaCode(marcas) == FirstHondaCode(marcas[i..])
    {
      assert marcas[i..][1..] == marcas[i + 1..];
      if Contains(Lower(marcas[i].nome), "honda") {
        hondaId := Some(marcas[i].codigo);
        break;
      }
      i := i + 1;
    }
  }

  /** The URL of the model list of brand `id`. */
  function ModelsUrl(id: string): string {
    MarcasUrl + "/" + (id + "/modelos")
  }

  /** The brand list yields the models request of the first brand named
      like "honda", unless there is none or its code is empty. */
  method ParseMarcas(marcas: seq<Entry>) returns (modelsUrl: Option<string>)
    ensures modelsUrl.Some? <==> FirstHondaCode(marcas).Some? && FirstHondaCode(marcas).value != ""
    ensures modelsUrl.Some? ==> modelsUrl == Some(ModelsUrl(FirstHondaCode(marcas).value))
  {
    var hondaId := FindHonda(marcas);
    if hondaId.Some? && hondaId.value != "" {
      modelsUrl := Some(ModelsUrl(hondaId.value));
    } else {
      modelsUrl := None;
    }
  }

  // ---------------------------------------------------------------------------
  // Models

  /** The brand code read back from a URL: its second-to-last '/'-separated
      segment; none when the URL has a single segment, where indexing
      fails. */
  function MarcaId(url: string): (r: Option<string>)
    ensures r.None? <==> '/' !in url
  {
    var segs := SplitOn(url, '/');
    SplitOnTwoIff(url, '/');
    if |segs| >= 2 then Some(segs[|segs| - 2]) else None
  }

  /** A string splits into at least two parts exactly when it contains the
      separator. */
  lemma {:induction false} SplitOnTwoIff(s: string, d: char)
    ensures |SplitOn(s, d)| >= 2 <==> d in s
    decreases |s|
  {
    if s != [] && s[0] != d {
      SplitOnTwoIff(s[1..], d);
      assert d in s <==> d in s[1..];
    }
  }

  /** Reading the brand code back from the models URL built for it gives the
      code again, when the code contains no '/'. */
  lemma MarcaIdOfModelsUrl(id: string)
    requires '/' !in id
    ensures MarcaId(ModelsUrl(id)) == Some(id)
  {
    var tail := id + ['/'] + "modelos";
    assert id + "/modelos" == tail;
    assert '/' !in "modelos";
    SplitOnWithout("modelos", '/');
    SplitOnConcat(id, "modelos", '/');
    SplitOnWithout(id, '/');
    SplitOnConcat(MarcasUrl, tail, '/');
  }

  /** A model named like "civic". */
  predicate IsCivic(e: Entry) {
    Names(e, "civic")
  }

  /** The models named like "civic", in list order. */
  function CivicModels(modelos: seq<Entry>): (r: seq<Entry>)
    ensures |r| <= |modelos|
    ensures forall k | 0 <= k < |r| :: IsCivic(r[k])
  {
    if modelos == [] then []
    else CivicModels(modelos[..|modelos| - 1]) + (if IsCivic(modelos[|modelos| - 1]) then [modelos[|modelos| - 1]] else [])
  }

  /** A model is kept exactly when it is in the list and named like
      "civic". */
  lemma {:induction false} CivicModelsMembers(modelos: seq<Entry>, m: Entry)
    ensures m in CivicModels(modelos) <==> m in modelos && IsCivic(m)
    decreases |modelos|
  {
    if modelos != [] {
      var init := modelos[..|modelos| - 1];
      CivicModelsMembers(init, m);
      assert modelos == init + [modelos[|modelos| - 1]];
    }
  }

  /** The filter keeps list order and never stops early: filtering a
      concatenation filters each part. */
  lemma {:induction false} CivicModelsConcat(a: seq<Entry>, b: seq<Entry>)
    ensures CivicModels(a + b) == CivicModels(a) + CivicModels(b)
    decreases |b|
  {
    if b == [] {
      assert a + b == a;
    } else {
      var init := b[..|b| - 1];
      assert (a + b)[..|a + b| - 1] == a + init;
      CivicModelsConcat(a, init);
    }
  }

  /** A years request, with the brand and model codes it carries along. */
  datatype AnosRequest = AnosRequest(url: string, marcaId: string, modeloId: string)

  /** The URL of the year list of model `modeloId` of brand `marcaId`. */
  function AnosUrl(marcaId: string, modeloId: string): string {
    MarcasUrl + "/" + marcaId + "/modelos/" + modeloId + "/anos"
  }

  function AnosRequestFor(marcaId: string, modelo: Entry): AnosRequest {
    AnosRequest(AnosUrl(marcaId, modelo.codigo), marcaId, modelo.codigo)
  }

  /** One years request per model, in order. */
  function RequestsFor(marcaId: string, modelos: seq<Entry>): (r: seq<AnosRequest>)
    ensures |r| == |modelos|
  {
    seq(|modelos|, k requires 0 <= k < |modelos| => AnosRequestFor(marcaId, modelos[k]))
  }

  const IndexErrorMessage: string := "list index out of range"

  /** The years requests a model list yields, given the URL it was fetched
      from: one per model named like "civic", all with the brand code read
      from the URL; reading the code fails when some model matches and the
      URL has no '/'. */
  function AnosRequests(url: string, modelos: seq<Entry>): Result<seq<AnosRequest>> {
    var civics := CivicModels(modelos);
    if civics == [] then Success([])
    else match MarcaId(url)
      case None => Failure(IndexErrorMessage)
      case Some(marcaId) => Success(RequestsFor(marcaId, civics))
  }

  /** The loop over the models: every model named like "civic" yields a
      years request, and the brand code is read from the URL at each
      match. */
  method ParseModelos(url: string, modelos: seq<Entry>) returns (r: Result<seq<AnosRequest>>)
    ensures r == AnosRequests(url, modelos)
  {
    var reqs: seq<AnosRequest> := [];
    var i := 0;
    while i < |modelos|
      invariant 0 <= i <= |modelos|
      invariant CivicModels(modelos[..i]) != [] ==> MarcaId(url).Some?
      invariant reqs == RequestsFor(MarcaId(url).GetOr(""), CivicModels(modelos[..i]))
    {
      assert modelos[..i + 1][..i] == modelos[..i];
      if Contains(Lower(modelos[i].nome), "civic") {
        var segs := SplitOn(url, '/');
        if |segs| < 2 {
          SplitOnTwoIff(url, '/');
          CivicModelsMembers(modelos, modelos[i]);
          return Failure(IndexErrorMessage);
        }
        var marcaId := segs[|segs| - 2];
        reqs := reqs + [AnosRequestFor(marcaId, modelos[i])];
      }
      i := i + 1;
    }
    assert modelos[..i] == modelos;
    return Success(reqs);
  }

  /** For a model list fetched from the models URL of brand `id`, every years
      request carries `id` as its brand code. */
  lemma AnosRequestsFromModelsUrl(id: string, modelos: seq<Entry>)
    requires '/' !in id
    ensures AnosRequests(ModelsUrl(id), modelos) == Success(RequestsFor(id, CivicModels(modelos)))
  {
    MarcaIdOfModelsUrl(id);
  }

  // ---------------------------------------------------------------------------
  // Years

  /** The URL of the details of year `anoCodigo`. */
  function DetalhesUrl(marcaId: string, modeloId: string, anoCodigo: string): string {
    MarcasUrl + "/" + marcaId + "/modelos/" + modeloId + "/anos/" + anoCodigo
  }

  /** One details request per year, in order. */
  function ParseAnos(marcaId: string, modeloId: string, anos: seq<Entry>): (r: seq<string>)
    ensures |r| == |anos|
  {
    seq(|anos|, k requires 0 <= k < |anos| => DetalhesUrl(marcaId, modeloId, anos[k].codigo))
  }

  /** A details URL is the years URL it came from, '/', and the year code, so
      its last segment is the year code when that has no '/'. */
  lemma DetalhesUrlExtendsAnos(marcaId: string, modeloId: string, anoCodigo: string)
    ensures DetalhesUrl(marcaId, modeloId, anoCodigo) == AnosUrl(marcaId, modeloId) + "/" + anoCodigo
    ensures '/' !in anoCodigo ==>
      var segs := SplitOn(DetalhesUrl(marcaId, modeloId, anoCodigo), '/');
      segs[|segs| - 1] == anoCodigo
  {
    var a := AnosUrl(marcaId, modeloId);
    assert DetalhesUrl(marcaId, modeloId, anoCodigo) == a + ['/'] + anoCodigo;
    if '/' !in anoCodigo {
      SplitOnConcat(a, anoCodigo, '/');
      SplitOnWithout(anoCodigo, '/');
    }
  }

  /** The k-th details request is for the k-th year, under the years URL of
      the same brand and model. */
  lemma ParseAnosRequests(marcaId: string, modeloId: string, anos: seq<Entry>, k: nat)
    requires k < |anos|
    ensures ParseAnos(marcaId, modeloId, anos)[k] == AnosUrl(marcaId, modeloId) + "/" + anos[k].codigo
  {
    DetalhesUrlExtendsAnos(marcaId, modeloId, anos[k].codigo);
  }

  // ---------------------------------------------------------------------------
  // Details

  /** The vehicle record: each field is the value under one key of the
      details object, or none when the key is missing. */
  datatype Veiculo<V> = Veiculo(
    modelo: Option<V>, marca: Option<V>, ano: Option<V>, combustivel: Option<V>,
    codigoFipe: Option<V>, mesReferencia: Option<V>, valor: Option<V>, tipoVeiculo: Option<V>)

  const DetalhesKeys: set<string> :=
    {"Modelo", "Marca", "AnoModelo", "Combustivel", "CodigoFipe", "MesReferencia", "Valor", "TipoVeiculo"}

  /** `d.get(key)`. */
  function Get<V>(d: map<string, V>, key: string): (r: Option<V>)
    ensures r.Some? <==> key in d
  {
    if key in d then Some(d[key]) else None
  }

  function ParseDetalhes<V>(d: map<string, V>): Veiculo<V> {
    Veiculo(Get(d, "Modelo"), Get(d, "Marca"), Get(d, "AnoModelo"), Get(d, "Combustivel"),
      Get(d, "CodigoFipe"), Get(d, "MesReferencia"), Get(d, "Valor"), Get(d, "TipoVeiculo"))
  }

  /** The field of `v` that the details key `key` fills. */
  function Field<V>(v: Veiculo<V>, key: string): Option<V> {
    if key == "Modelo" then v.modelo
    else if key == "Marca" then v.marca
    else if key == "AnoModelo" then v.ano
    else if key == "Combustivel" then v.combustivel
    else if key == "CodigoFipe" then v.codigoFipe
    else if key == "MesReferencia" then v.mesReferencia
    else if key == "Valor" then v.valor
    else if key == "TipoVeiculo" then v.tipoVeiculo
    else None
  }

  /** The details object a record is read from, holding exactly its present
      fields. */
  function DetalhesOf<V>(v: Veiculo<V>): (d: map<string, V>)
    ensures d.Keys <= DetalhesKeys
  {
    map k | k in DetalhesKeys && Field(v, k).Some? :: Field(v, k).value
  }

  /** Each of the eight keys fills its own field with `d.get(key)`. */
  lemma FieldOfParse<V>(d: map<string, V>, key: string)
    requires key in DetalhesKeys
    ensures Field(ParseDetalhes(d), key) == Get(d, key)
  {
  }

  /** Reading a record back from the object written for it gives the record
      again. */
  lemma ParseDetalhesOf<V>(v: Veiculo<V>)
    ensures ParseDetalhes(DetalhesOf(v)) == v
  {
    var d := DetalhesOf(v);
    assert Get(d, "Modelo") == v.modelo;
    assert Get(d, "Marca") == v.marca;
    assert Get(d, "AnoModelo") == v.ano;
    assert Get(d, "Combustivel") == v.combustivel;
    assert Get(d, "CodigoFipe") == v.codigoFipe;
    assert Get(d, "MesReferencia") == v.mesReferencia;
    assert Get(d, "Valor") == v.valor;
    assert Get(d, "TipoVeiculo") == v.tipoVeiculo;
  }

  /** The record keeps exactly the eight keys of the object: writing it back
      gives the object restricted to those keys, so other keys are ignored
      and no value is changed. */
  lemma DetalhesOfParse<V>(d: map<string, V>)
    ensures DetalhesOf(ParseDetalhes(d)) == map k | k in d && k in DetalhesKeys :: d[k]
  {
    forall k | k in DetalhesKeys {
      FieldOfParse(d, k);
    }
  }
}

=== FILE: text.dfy ===
/** The string operations of Python's `str` that the crawlers use, on
    `seq<char>`: `isspace`, `isdigit`, `lower`, `upper`, `strip`, `split()`
    (on runs of whitespace), `split(sep)`, `" ".join`, `startswith`,
    `endswith`, the `in` operator on strings, `replace` of one character,
    and `str()` of an integer. Case mapping covers ASCII and Latin-1. */
module Text {

  // ---------------------------------------------------------------------------
  // Characters

  /** `c.isspace()` for the characters up to U+00FF. */
  predicate IsSpace(c: char) {
    c == ' ' || '\t' <= c <= '\r' || '\U{1C}' <= c <= '\U{1F}' || c == '\U{85}' || c == '\U{A0}'
  }

  /** The ASCII digits, which is what `\d` and `[^\d]` mean in this model. */
  predicate IsDigit(c: char) {
    '0' <= c <= '9'
  }

  predicate AllSpace(s: string) {
    forall i | 0 <= i < |s| :: IsSpace(s[i])
  }

  predicate NoSpace(s: string) {
    forall i | 0 <= i < |s| :: !IsSpace(s[i])
  }

  predicate AllDigits(s: string) {
    forall i | 0 <= i < |s| :: IsDigit(s[i])
  }

  /** `c.lower()` for ASCII and Latin-1 capitals. */
  function LowerChar(c: char): (r: char)
    ensures IsSpace(r) == IsSpace(c)
    ensures IsDigit(r) == IsDigit(c)
  {
    if 'A' <= c <= 'Z' || ('\U{C0}' <= c <= '\U{DE}' && c != '\U{D7}') then (c as int + 32) as char
    else c
  }

  /** `c.upper()` for ASCII and Latin-1 small letters (except U+00DF, whose
      upper case is two letters). */
  function UpperChar(c: char): (r: char)
    ensures IsSpace(r) == IsSpace(c)
    ensures IsDigit(r) == IsDigit(c)
  {
    if 'a' <= c <= 'z' || ('\U{E0}' <= c <= '\U{FE}' && c != '\U{F7}') then (c as int - 32) as char
    else if c == '\U{FF}' then '\U{178}'
    else c
  }

  function Lower(s: string): (r: string)
    ensures |r| == |s|
  {
    seq(|s|, i requires 0 <= i < |s| => LowerChar(s[i]))
  }

  function Upper(s: string): (r: string)
    ensures |r| == |s|
  {
    seq(|s|, i requires 0 <= i < |s| => UpperChar(s[i]))
  }

  /** `s.replace(a, b)` for single characters. */
  function ReplaceChar(s: string, a: char, b: char): (r: string)
    ensures |r| == |s|
    ensures a != b ==> forall i | 0 <= i < |r| :: r[i] != a
  {
    seq(|s|, i requires 0 <= i < |s| => if s[i] == a then b else s[i])
  }

  lemma UpperKeepsSpace(s: string)
    ensures AllSpace(Upper(s)) <==> AllSpace(s)
  {
    assert forall i | 0 <= i < |s| :: Upper(s)[i] == UpperChar(s[i]);
  }

  // ---------------------------------------------------------------------------
  // Prefixes, suffixes, substrings

  predicate StartsWith(s: string, p: string) {
    |p| <= |s| && s[..|p|] == p
  }

  predicate EndsWith(s: string, p: string) {
    |p| <= |s| && s[|s| - |p|..] == p
  }

  /** `p` occurs in `s` starting at index `i`. */
  predicate OccursAt(s: string, p: string, i: int) {
    0 <= i && i + |p| <= |s| && s[i..i + |p|] == p
  }

  /** Python's `p in s`. */
  predicate Contains(s: string, p: string)
    decreases |s|
  {
    StartsWith(s, p) || (s != [] && Contains(s[1..], p))
  }

  // ---------------------------------------------------------------------------
  // strip()

  /** `s.lstrip()`. */
  function TrimStart(s: string): string
    decreases |s|
  {
    if s != [] && IsSpace(s[0]) then TrimStart(s[1..]) else s
  }

  /** `s.rstrip()`. */
  function TrimEnd(s: string): string
    decreases |s|
  {
    if s != [] && IsSpace(s[|s| - 1]) then TrimEnd(s[..|s| - 1]) else s
  }

  /** `lstrip` removes a prefix of whitespace and stops at a character that
      is not whitespace. */
  lemma {:induction false} TrimStartFacts(s: string)
    ensures |TrimStart(s)| <= |s| && TrimStart(s) == s[|s| - |TrimStart(s)|..]
    ensures forall i | 0 <= i < |s| - |TrimStart(s)| :: IsSpace(s[i])
    ensures TrimStart(s) != [] ==> !IsSpace(TrimStart(s)[0])
    decreases |s|
  {
    if s != [] && IsSpace(s[0]) {
      TrimStartFacts(s[1..]);
    }
  }

  /** `rstrip` removes a suffix of whitespace and stops at a character that
      is not whitespace. */
  lemma {:induction false} TrimEndFacts(s: string)
    ensures |TrimEnd(s)| <= |s| && TrimEnd(s) == s[..|TrimEnd(s)|]
    ensures forall i | |TrimEnd(s)| <= i < |s| :: IsSpace(s[i])
    ensures TrimEnd(s) != [] ==> !IsSpace(TrimEnd(s)[|TrimEnd(s)| - 1])
    decreases |s|
  {
    if s != [] && IsSpace(s[|s| - 1]) {
      TrimEndFacts(s[..|s| - 1]);
    }
  }

  /** `s.strip()`. Its ends are not whitespace; `StripSpec` says what it
      removes. */
  function Strip(s: string): (r: string)
    ensures |r| <= |s|
    ensures r != [] ==> !IsSpace(r[0]) && !IsSpace(r[|r| - 1])
  {
    TrimStartFacts(s);
    TrimEndFacts(TrimStart(s));
    assert TrimEnd(TrimStart(s)) != [] ==> TrimEnd(TrimStart(s))[0] == TrimStart(s)[0];
    TrimEnd(TrimStart(s))
  }

  /** Number of whitespace characters `strip()` removes from the front. */
  function LeadingSpace(s: string): nat {
    TrimStartFacts(s);
    |s| - |TrimStart(s)|
  }

  /** `strip()` leaves a slice of `s`: what it removes at either end is
      whitespace, and the result is empty exactly when `s` is all
      whitespace. */
  lemma StripSpec(s: string)
    ensures LeadingSpace(s) + |Strip(s)| <= |s|
    ensures Strip(s) == s[LeadingSpace(s)..LeadingSpace(s) + |Strip(s)|]
    ensures forall i | 0 <= i < LeadingSpace(s) :: IsSpace(s[i])
    ensures forall i | LeadingSpace(s) + |Strip(s)| <= i < |s| :: IsSpace(s[i])
    ensures Strip(s) == [] <==> AllSpace(s)
  {
    var t := TrimStart(s);
    var n := |s| - |t|;
    TrimStartFacts(s);
    TrimEndFacts(t);
    var r := TrimEnd(t);
    assert r == s[n..n + |r|];
    forall i | n + |r| <= i < |s|
      ensures IsSpace(s[i])
    {
      assert s[i] == t[i - n];
    }
    if r != [] {
      assert s[n] == r[0];
    }
  }

  /** A string without whitespace at either end is its own `strip()`. */
  lemma StripUnchanged(s: string)
    requires s != [] && !IsSpace(s[0]) && !IsSpace(s[|s| - 1])
    ensures Strip(s) == s
  {
  }

  /** `strip()` is idempotent. */
  lemma StripIdempotent(s: string)
    ensures Strip(Strip(s)) == Strip(s)
  {
    if Strip(s) != [] {
      StripUnchanged(Strip(s));
    } else {
      StripSpec([]);
    }
  }

  // ---------------------------------------------------------------------------
  // split() and " ".join

  /** Length of the longest prefix of `s` without whitespace. */
  function WordLen(s: string): (n: nat)
    ensures n <= |s| && NoSpace(s[..n])
    ensures n < |s| ==> IsSpace(s[n])
    ensures s != [] && !IsSpace(s[0]) ==> n > 0
    decreases |s|
  {
    if s == [] || IsSpace(s[0]) then 0 else 1 + WordLen(s[1..])
  }

  /** `s.split()`: the maximal runs of non-whitespace characters, in order. */
  function Tokens(s: string): (r: seq<string>)
    ensures forall k | 0 <= k < |r| :: r[k] != [] && NoSpace(r[k])
    decreases |s|
  {
    if s == [] then []
    else if IsSpace(s[0]) then Tokens(s[1..])
    else
      var n := WordLen(s);
      [s[..n]] + Tokens(s[n..])
  }

  /** `" ".join(ts)`. */
  function Join(ts: seq<string>): string {
    if |ts| == 0 then ""
    else if |ts| == 1 then ts[0]
    else ts[0] + " " + Join(ts[1..])
  }

  /** Every element is a possible token: non-empty and without whitespace. */
  predicate AreWords(ts: seq<string>) {
    forall k | 0 <= k < |ts| :: ts[k] != [] && NoSpace(ts[k])
  }

  lemma {:induction false} TokensEmptyIff(s: string)
    ensures Tokens(s) == [] <==> AllSpace(s)
    decreases |s|
  {
    if s != [] && IsSpace(s[0]) {
      TokensEmptyIff(s[1..]);
      assert AllSpace(s) <==> AllSpace(s[1..]) by {
        if AllSpace(s[1..]) {
          forall i | 0 <= i < |s| ensures IsSpace(s[i]) { if i > 0 { assert s[i] == s[1..][i - 1]; } }
        }
      }
    }
  }

  lemma {:induction false} WordLenOfWord(w: string, rest: string)
    requires w != [] && NoSpace(w)
    requires rest == [] || IsSpace(rest[0])
    ensures WordLen(w + rest) == |w|
    decreases |w|
  {
    if |w| > 1 {
      assert (w + rest)[1..] == w[1..] + rest;
      WordLenOfWord(w[1..], rest);
    } else {
      assert (w + rest)[1..] == rest;
    }
  }

  /** Splitting a word followed by a separator gives the word first. */
  lemma TokensOfWordThen(w: string, rest: string)
    requires w != [] && NoSpace(w)
    ensures Tokens(w + " " + rest) == [w] + Tokens(rest)
  {
    var s := w + " " + rest;
    WordLenOfWord(w, " " + rest);
    assert s == w + (" " + rest);
    assert s[..|w|] == w;
    assert s[|w|..] == " " + rest;
    assert (" " + rest)[1..] == rest;
  }

  lemma TokensOfWord(w: string)
    requires w != [] && NoSpace(w)
    ensures Tokens(w) == [w]
  {
    WordLenOfWord(w, "");
    assert w + "" == w;
    assert w[|w|..] == [];
  }

  /** Joining words with single spaces and splitting again gives the words
      back. */
  lemma {:induction false} TokensOfJoin(ts: seq<string>)
    requires AreWords(ts)
    ensures Tokens(Join(ts)) == ts
    decreases |ts|
  {
    if |ts| == 1 {
      TokensOfWord(ts[0]);
    } else if |ts| > 1 {
      TokensOfJoin(ts[1..]);
      TokensOfWordThen(ts[0], Join(ts[1..]));
      assert ts == [ts[0]] + ts[1..];
    }
  }

  lemma JoinEmptyIff(ts: seq<string>)
    requires AreWords(ts)
    ensures Join(ts) == "" <==> ts == []
  {
    if |ts| == 1 { assert ts[0] != []; }
    else if |ts| > 1 { assert |Join(ts)| >= |ts[0]| + 1; }
  }

  // ---------------------------------------------------------------------------
  // split(sep)

  /** `s.split(d)` for a one-character separator `d`. */
  function SplitOn(s: string, d: char): (r: seq<string>)
    ensures |r| >= 1
    decreases |s|
  {
    if s == [] then [""]
    else
      var rest := SplitOn(s[1..], d);
      if s[0] == d then [""] + rest else [[s[0]] + rest[0]] + rest[1..]
  }

  lemma {:induction false} SplitOnWithout(s: string, d: char)
    requires d !in s
    ensures SplitOn(s, d) == [s]
    decreases |s|
  {
    if s != [] {
      SplitOnWithout(s[1..], d);
      assert [s[0]] + s[1..] == s;
    }
  }

  /** A separator between `a` and `b` splits the two apart. */
  lemma {:induction false} SplitOnConcat(a: string, b: string, d: char)
    ensures SplitOn(a + [d] + b, d) == SplitOn(a, d) + SplitOn(b, d)
    decreases |a|
  {
    var s := a + [d] + b;
    if a == [] {
      assert s[1..] == b;
    } else {
      assert s[1..] == a[1..] + [d] + b;
      SplitOnConcat(a[1..], b, d);
    }
  }

  /** `s.split(sep)[0]` for a non-empty separator: the text before the first
      occurrence of `sep`, or all of `s`. */
  function BeforeFirst(s: string, sep: string): (r: string)
    requires sep != []
    ensures |r| <= |s| && r == s[..|r|]
    ensures |r| == |s| || OccursAt(s, sep, |r|)
    ensures forall i | 0 <= i < |r| :: !OccursAt(s, sep, i)
    decreases |s|
  {
    if s == [] || StartsWith(s, sep) then []
    else
      var t := BeforeFirst(s[1..], sep);
      assert forall i | 1 <= i <= |t| :: OccursAt(s, sep, i) == OccursAt(s[1..], sep, i - 1) by {
        forall i | 1 <= i <= |t| ensures OccursAt(s, sep, i) == OccursAt(s[1..], sep, i - 1) {
          if i + |sep| <= |s| { assert s[1..][i - 1..i - 1 + |sep|] == s[i..i + |sep|]; }
        }
      }
      [s[0]] + t
  }

  // ---------------------------------------------------------------------------
  // str() of an integer

  function DigitChar(d: nat): (c: char)
    requires d < 10
    ensures IsDigit(c)
  {
    ('0' as int + d) as char
  }

  function NatToString(n: nat): (r: string)
    ensures r != [] && AllDigits(r)
    decreases n
  {
    if n < 10 then [DigitChar(n)] else NatToString(n / 10) + [DigitChar(n % 10)]
  }

  /** `str(i)` for an integer. */
  function IntToString(i: int): (r: string)
    ensures r != [] && (i >= 0 ==> AllDigits(r))
  {
    if i < 0 then "-" + NatToString(-i) else NatToString(i)
  }
}

=== FILE: webmotors.dfy ===
/** The price-table spider: one request per configured vehicle, and for each
    answer a record that is either a vehicle (brand, model, version, year,
    state and up to two prices) or an error; the spider counts successes and
    failures and keeps every record it produced. */
module Webmotors {
  import opened Wrappers
  import opened Text

  // ---------------------------------------------------------------------------
  // Requests

  const BaseUrl: string := "https://www.webmotors.com.br/tabela-fipe/carros/"

  /** One entry of the seed table. `versionSlug` is the entry's `type`. */
  datatype Config = Config(brand: string, model: string, year: int, versionSlug: string, state: string)

  datatype Request = Request(url: string, priority: int, config: Config)

  /** The relative path of the price page of `c`. */
  function UrlPath(c: Config): string {
    c.brand + "/" + (c.model + "/" + (IntToString(c.year) + "/" + (c.versionSlug + "/" + Lower(c.state))))
  }

  /** Joining the base URL, which ends in '/', with a relative path that does
      not start with '/' or a scheme is concatenation. */
  function FullUrl(c: Config): string {
    BaseUrl + UrlPath(c)
  }

  /** The requests for the seed table, in table order: the i-th of N entries
      gets priority N - i, so earlier entries are scheduled first. */
  function StartRequests(configs: seq<Config>): (reqs: seq<Request>)
    ensures |reqs| == |configs|
    ensures forall i | 0 <= i < |reqs| ::
      reqs[i].config == configs[i] && StartsWith(reqs[i].url, BaseUrl) && 1 <= reqs[i].priority <= |configs|
    ensures forall i, j | 0 <= i < j < |reqs| :: reqs[i].priority > reqs[j].priority
    ensures forall i | 0 <= i < |reqs| ::
      reqs[i].url == BaseUrl + UrlPath(configs[i]) && reqs[i].priority == |configs| - i
  {
    seq(|configs|, i requires 0 <= i < |configs| => Request(FullUrl(configs[i]), |configs| - i, configs[i]))
  }

  lemma LowerNoSlash(s: string)
    requires '/' !in s
    ensures '/' !in Lower(s)
  {
    forall i | 0 <= i < |s| ensures Lower(s)[i] != '/' {
      assert Lower(s)[i] == LowerChar(s[i]);
    }
  }

  /** Splitting on `d` a segment without `d`, then `d`, then the rest. */
  lemma SplitOnSegment(a: string, rest: string, d: char)
    requires d !in a
    ensures SplitOn(a + [d] + rest, d) == [a] + SplitOn(rest, d)
  {
    SplitOnConcat(a, rest, d);
    SplitOnWithout(a, d);
  }

  lemma IntToStringNoSlash(y: int)
    ensures '/' !in IntToString(y)
  {
    var r := IntToString(y);
    if y >= 0 {
      assert forall i | 0 <= i < |r| :: IsDigit(r[i]);
    } else {
      var n := NatToString(-y);
      assert r == "-" + n;
      assert forall i | 1 <= i < |r| :: r[i] == n[i - 1];
    }
  }

  /** The path of a request splits back into the five configured segments
      (the state lower-cased), provided none of them contains '/'. */
  lemma UrlSegments(c: Config)
    requires '/' !in c.brand && '/' !in c.model && '/' !in c.versionSlug && '/' !in c.state
    ensures SplitOn(UrlPath(c), '/') == [c.brand, c.model, IntToString(c.year), c.versionSlug, Lower(c.state)]
  {
    var y := IntToString(c.year);
    var st := Lower(c.state);
    IntToStringNoSlash(c.year);
    LowerNoSlash(c.state);
    var r3 := c.versionSlug + ['/'] + st;
    var r2 := y + ['/'] + r3;
    var r1 := c.model + ['/'] + r2;
    SplitOnWithout(st, '/');
    SplitOnSegment(c.versionSlug, st, '/');
    SplitOnSegment(y, r3, '/');
    SplitOnSegment(c.model, r2, '/');
    SplitOnSegment(c.brand, r1, '/');
  }

  // ---------------------------------------------------------------------------
  // The page and the records

  /** What the spider reads from one answer: the status, the URL and text,
      the breadcrumb and heading texts, the first result-info text, the
      texts that may hold the version, and the texts of the price
      selectors. */
  datatype Page = Page(
    status: int,
    url: string,
    text: string,
    breadcrumb: seq<string>,
    resultInfo: Option<string>,
    versionElements: seq<string>,
    priceElements: seq<string>)

  /** A record appended to the results: an error for one configuration (the
      configuration is absent when a failed request carried none), or a
      vehicle. */
  datatype Record =
    | Failed(error: string, url: string, configuracao: Option<Config>)
    | Vehicle(
        marca: string, modelo: string, versao: string, ano: int, estado: string,
        precoFipe: Option<string>, precoWebmotors: Option<string>, url: string, dadosConfiguracao: Config)

  const NotFoundPhrase: string := "página não encontrada"
  const NotFoundMessage: string := "Página não encontrada"
  const NoPricesMessage: string := "Preços não encontrados"

  /** The page does not exist: status 404, or the lower-cased text mentions
      that the page was not found. */
  predicate NotFound(status: int, text: string) {
    status == 404 || Contains(Lower(text), NotFoundPhrase)
  }

  lemma LowerConcat(a: string, b: string)
    ensures Lower(a + b) == Lower(a) + Lower(b)
  {
    assert forall i | 0 <= i < |a + b| :: Lower(a + b)[i] == (Lower(a) + Lower(b))[i];
  }

  lemma {:induction false} ContainsMiddle(a: string, p: string, b: string)
    ensures Contains(a + p + b, p)
    decreases |a|
  {
    if a == [] {
      assert (a + p + b)[..|p|] == p;
    } else {
      assert (a + p + b)[1..] == a[1..] + p + b;
      ContainsMiddle(a[1..], p, b);
    }
  }

  /** Any text that contains the phrase in some capitalisation whose lower
      case is the phrase marks the page as missing, whatever the status. */
  lemma NotFoundWhenPhrase(status: int, before: string, phrase: string, after: string)
    requires Lower(phrase) == NotFoundPhrase
    ensures NotFound(status, before + phrase + after)
  {
    LowerConcat(before + phrase, after);
    LowerConcat(before, phrase);
    ContainsMiddle(Lower(before), NotFoundPhrase, Lower(after));
  }

  /** The capitalised form of the phrase counts. */
  lemma NotFoundPhraseCapitalised(p: string)
    requires p == "Página não encontrada"
    ensures Lower(p) == NotFoundPhrase
  {
  }

  /** The all-capitals form of the phrase counts. */
  lemma NotFoundPhraseCapitals(p: string)
    requires p == "PÁGINA NÃO ENCONTRADA"
    ensures Lower(p) == NotFoundPhrase
  {
  }

  // ---------------------------------------------------------------------------
  // Brand and model

  /** The breadcrumb scan: both values start as the configured brand and
      model upper-cased, and an element that mentions either one assigns
      that same value again, so the elements never change the outcome. */
  method BreadcrumbBrandAndModel(config: Config, elements: seq<string>) returns (marca: string, modelo: string)
    ensures marca == Upper(config.brand) && modelo == Upper(config.model)
  {
    marca := Upper(config.brand);
    modelo := Upper(config.model);
    var i := 0;
    while i < |elements|
      invariant 0 <= i <= |elements|
      invariant marca == Upper(config.brand) && modelo == Upper(config.model)
    {
      var element := Upper(Strip(elements[i]));
      if Contains(element, Upper(config.brand)) {
        marca := Upper(config.brand);
      }
      if Contains(element, Upper(config.model)) {
        modelo := Upper(config.model);
      }
      i := i + 1;
    }
  }

  // ---------------------------------------------------------------------------
  // Version

  /** The text before the first " - " of the stripped result info, stripped;
      "" when there is no result info or it is empty. */
  function VersionFromResultInfo(info: Option<string>): (v: string)
    ensures v != "" ==> info.Some? && !IsSpace(v[0]) && !IsSpace(v[|v| - 1])
  {
    if info.None? || info.value == "" then ""
    else Strip(BeforeFirst(Strip(info.value), " - "))
  }

  /** The element mentions a fuel or a gearbox. */
  predicate MentionsVersionWord(s: string) {
    Contains(s, "flex") || Contains(s, "gasolina") || Contains(s, "diesel") ||
    Contains(s, "manual") || Contains(s, "automático") || Contains(s, "cvt")
  }

  /** A stripped element longer than five characters whose lower case
      mentions a fuel or a gearbox can name the version. */
  predicate Qualifies(element: string) {
    |Strip(element)| > 5 && MentionsVersionWord(Lower(Strip(element)))
  }

  /** The first qualifying element, stripped. */
  function FirstQualifying(elements: seq<string>): (r: Option<string>)
    ensures r.Some? ==> |r.value| > 5
  {
    if elements == [] then None
    else if Qualifies(elements[0]) then Some(Strip(elements[0]))
    else FirstQualifying(elements[1..])
  }

  /** No element is taken exactly when none qualifies. */
  lemma {:induction false} FirstQualifyingNoneIff(elements: seq<string>)
    ensures FirstQualifying(elements).None? <==> forall k | 0 <= k < |elements| :: !Qualifies(elements[k])
    decreases |elements|
  {
    if elements != [] && !Qualifies(elements[0]) {
      var rest := elements[1..];
      FirstQualifyingNoneIff(rest);
      assert forall k | 1 <= k < |elements| :: elements[k] == rest[k - 1];
    }
  }

  /** The element taken qualifies, and none before it does. */
  lemma {:induction false} FirstQualifyingIsFirst(elements: seq<string>)
    ensures var r := FirstQualifying(elements);
      r.Some? ==>
        exists k | 0 <= k < |elements| ::
          Qualifies(elements[k]) && r.value == Strip(elements[k]) &&
          forall j | 0 <= j < k :: !Qualifies(elements[j])
    decreases |elements|
  {
    if elements != [] && !Qualifies(elements[0]) {
      var rest := elements[1..];
      FirstQualifyingIsFirst(rest);
      var r := FirstQualifying(rest);
      if r.Some? {
        var k :| 0 <= k < |rest| && Qualifies(rest[k]) && r.value == Strip(rest[k]) &&
          forall j | 0 <= j < k :: !Qualifies(rest[j]);
        assert elements[k + 1] == rest[k];
        forall j | 0 <= j < k + 1 ensures !Qualifies(elements[j]) {
          if j > 0 {
            assert elements[j] == rest[j - 1];
          }
        }
      }
    }
  }

  /** The configured slug with '-' read as ' ', upper-cased. */
  function SlugVersion(slug: string): (v: string)
    ensures |v| == |slug|
  {
    Upper(ReplaceChar(slug, '-', ' '))
  }

  /** The version: the result info, else the first qualifying element, else
      the configured slug. */
  function Versao(config: Config, page: Page): string {
    var fromInfo := VersionFromResultInfo(page.resultInfo);
    if fromInfo != "" then fromInfo
    else match FirstQualifying(page.versionElements)
      case Some(v) => v
      case None => SlugVersion(config.versionSlug)
  }

  /** The loop over the version elements, which stops at the first element
      that qualifies. */
  method FindVersionElement(elements: seq<string>) returns (versao: Option<string>)
    ensures versao == FirstQualifying(elements)
  {
    versao := None;
    var i := 0;
    while i < |elements|
      invariant 0 <= i <= |elements|
      invariant versao.None?
      invariant FirstQualifying(elements) == FirstQualifying(elements[i..])
    {
      assert elements[i..][1..] == elements[i + 1..];
      var element := Strip(elements[i]);
      if |element| > 5 && MentionsVersionWord(Lower(element)) {
        versao := Some(element);
        break;
      }
      i := i + 1;
    }
  }

  /** The three sources of the version, tried in order. */
  method FindVersion(config: Config, page: Page) returns (versao: string)
    ensures versao == Versao(config, page)
  {
    versao := VersionFromResultInfo(page.resultInfo);
    if versao == "" {
      var found := FindVersionElement(page.versionElements);
      if found.Some? {
        versao := found.value;
      }
    }
    if versao == "" {
      versao := SlugVersion(config.versionSlug);
    }
  }

  /** A result info of the form "VERSION - rest" gives VERSION, when VERSION
      has no whitespace at its ends and the appended " - " is the first
      separator. */
  lemma VersionBeforeSeparator(v: string, rest: string)
    requires v != [] && !IsSpace(v[0]) && !IsSpace(v[|v| - 1])
    requires rest != [] && !IsSpace(rest[|rest| - 1])
    requires forall i | 0 <= i < |v| :: !OccursAt(v + " - ", " - ", i)
    ensures VersionFromResultInfo(Some(v + " - " + rest)) == v
  {
    var s := v + " - " + rest;
    StripUnchanged(s);
    var b := BeforeFirst(s, " - ");
    assert OccursAt(s, " - ", |v|) by {
      assert s[|v|..|v| + 3] == " - ";
    }
    forall i | 0 <= i < |v| ensures !OccursAt(s, " - ", i) {
      assert !OccursAt(v + " - ", " - ", i);
      assert s[i..i + 3] == (v + " - ")[i..i + 3];
    }
    assert b == v;
    StripUnchanged(v);
  }

  /** The version is empty only when all three sources are: in particular
      it is never empty for a configuration with a non-empty slug. */
  lemma VersaoEmptyIff(config: Config, page: Page)
    ensures Versao(config, page) == "" <==>
      VersionFromResultInfo(page.resultInfo) == "" &&
      FirstQualifying(page.versionElements).None? && config.versionSlug == ""
  {
  }

  /** Falling back to the slug leaves no '-' in the version and keeps its
      length. */
  lemma SlugVersionNoHyphen(slug: string)
    ensures '-' !in SlugVersion(slug) && |SlugVersion(slug)| == |slug|
  {
    var t := ReplaceChar(slug, '-', ' ');
    forall i | 0 <= i < |t| ensures SlugVersion(slug)[i] != '-' {
      assert t[i] != '-';
    }
  }

  // ---------------------------------------------------------------------------
  // Prices

  /** The selector texts that are not blank, stripped, in order. */
  function NonBlank(texts: seq<string>): (r: seq<string>)
    ensures |r| <= |texts|
    ensures forall k | 0 <= k < |r| :: r[k] != "" && Strip(r[k]) == r[k]
    ensures r == [] <==> forall k | 0 <= k < |texts| :: Strip(texts[k]) == ""
    decreases |texts|
  {
    if texts == [] then []
    else
      var rest := NonBlank(texts[1..]);
      var t := Strip(texts[0]);
      assert forall k | 1 <= k < |texts| :: texts[k] == texts[1..][k - 1];
      if t != "" then (StripIdempotent(texts[0]); [t] + rest) else rest
  }

  /** One selector text contributes its stripped text, unless that is blank. */
  lemma NonBlankOne(t: string)
    ensures NonBlank([t]) == if Strip(t) != "" then [Strip(t)] else []
  {
    assert [t][1..] == [];
  }

  /** Filtering a concatenation filters each part: the texts keep their order. */
  lemma {:induction false} NonBlankConcat(a: seq<string>, b: seq<string>)
    ensures NonBlank(a + b) == NonBlank(a) + NonBlank(b)
    decreases |a|
  {
    if a == [] {
      assert a + b == b;
    } else {
      assert (a + b)[0] == a[0];
      assert (a + b)[1..] == a[1..] + b;
      NonBlankConcat(a[1..], b);
    }
  }

  /** A character of a price: a digit, '.' or ','. */
  predicate PriceChar(c: char) {
    IsDigit(c) || c == '.' || c == ','
  }

  predicate AllPriceChars(s: string) {
    forall k | 0 <= k < |s| :: PriceChar(s[k])
  }

  /** Number of whitespace characters from index `i` on. */
  function SpaceRun(s: string, i: nat): (n: nat)
    requires i <= |s|
    ensures i + n <= |s|
    ensures i + n < |s| ==> !IsSpace(s[i + n])
    decreases |s| - i
  {
    if i < |s| && IsSpace(s[i]) then 1 + SpaceRun(s, i + 1) else 0
  }

  /** Number of price characters from index `i` on. */
  function PriceRun(s: string, i: nat): (n: nat)
    requires i <= |s|
    ensures i + n <= |s| && AllPriceChars(s[i..i + n])
    ensures i + n < |s| ==> !PriceChar(s[i + n])
    decreases |s| - i
  {
    if i < |s| && PriceChar(s[i]) then
      var n := PriceRun(s, i + 1);
      assert s[i..i + 1 + n] == [s[i]] + s[i + 1..i + 1 + n];
      1 + n
    else 0
  }

  /** Where the amount of an "R$" at `p` starts: after the whitespace run
      that follows the "R$". */
  function AmountStart(s: string, p: nat): (j: nat)
    requires p + 2 <= |s|
    ensures p + 2 <= j <= |s|
  {
    p + 2 + SpaceRun(s, p + 2)
  }

  /** Where that amount ends: after the run of price characters. */
  function AmountEnd(s: string, p: nat): (e: nat)
    requires p + 2 <= |s|
    ensures AmountStart(s, p) <= e <= |s|
  {
    AmountStart(s, p) + PriceRun(s, AmountStart(s, p))
  }

  /** The amount read after an "R$" at `p`. */
  function AmountAt(s: string, p: nat): (m: string)
    requires p + 2 <= |s|
    ensures AllPriceChars(m)
  {
    s[AmountStart(s, p)..AmountEnd(s, p)]
  }

  /** The pattern `R\$\s*([\d\.,]+)` matches at `p`: "R$", any whitespace
      (possibly none) and at least one price character. */
  predicate MatchStart(s: string, p: nat) {
    p + 2 <= |s| && s[p] == 'R' && s[p + 1] == '$' && AmountStart(s, p) < AmountEnd(s, p)
  }

  /** The groups `re.findall(r'R\$\s*([\d\.,]+)', s)` returns, searching
      from index `i`: where the pattern matches, its amount is taken and the
      search resumes after it; elsewhere it moves on by one character. */
  function PriceMatchesFrom(s: string, i: nat): (r: seq<string>)
    requires i <= |s|
    ensures forall k | 0 <= k < |r| :: r[k] != "" && AllPriceChars(r[k])
    decreases |s| - i
  {
    if i + 2 > |s| then []
    else if MatchStart(s, i) then [AmountAt(s, i)] + PriceMatchesFrom(s, AmountEnd(s, i))
    else PriceMatchesFrom(s, i + 1)
  }

  function PriceMatches(s: string): (r: seq<string>)
    ensures forall k | 0 <= k < |r| :: r[k] != "" && AllPriceChars(r[k])
  {
    PriceMatchesFrom(s, 0)
  }

  /** The whitespace run from `i` is exactly `n` long when the `n`
      characters from `i` are whitespace and the text ends or has another
      character after them. */
  lemma {:induction false} SpaceRunExact(s: string, i: nat, n: nat)
    requires i + n <= |s| && forall k | i <= k < i + n :: IsSpace(s[k])
    requires i + n == |s| || !IsSpace(s[i + n])
    ensures SpaceRun(s, i) == n
    decreases n
  {
    if n > 0 {
      SpaceRunExact(s, i + 1, n - 1);
    }
  }

  /** The run of price characters from `i` is exactly `n` long when the `n`
      characters from `i` are price characters and the text ends or has
      another character after them. */
  lemma {:induction false} PriceRunExact(s: string, i: nat, n: nat)
    requires i + n <= |s| && forall k | i <= k < i + n :: PriceChar(s[k])
    requires i + n == |s| || !PriceChar(s[i + n])
    ensures PriceRun(s, i) == n
    decreases n
  {
    if n > 0 {
      PriceRunExact(s, i + 1, n - 1);
    }
  }

  /** `m` is the amount the pattern captures for an "R$" at index `p`:
      after the "R$" and the whitespace run, `m` follows and the text ends
      or goes on with a character that is not a price character. */
  predicate MatchAt(s: string, p: nat, m: string) {
    p + 2 <= |s| && s[p] == 'R' && s[p + 1] == '$' &&
    var j := p + 2 + SpaceRun(s, p + 2);
    j + |m| <= |s| && s[j..j + |m|] == m && (j + |m| == |s| || !PriceChar(s[j + |m|]))
  }

  /** `m` is captured for some "R$" at or after index `i`. */
  predicate MatchedFrom(s: string, i: nat, m: string) {
    exists p | i <= p < |s| :: MatchAt(s, p, m)
  }

  /** Every amount of `r` is captured for some "R$" at or after index `i`. */
  predicate AllMatchedFrom(s: string, i: nat, r: seq<string>) {
    forall k | 0 <= k < |r| :: MatchedFrom(s, i, r[k])
  }

  /** Every match found from index `i` is the amount captured for some "R$"
      at or after `i`. */
  lemma {:induction false} PriceMatchesLocated(s: string, i: nat)
    requires i <= |s|
    ensures AllMatchedFrom(s, i, PriceMatchesFrom(s, i))
    decreases |s| - i
  {
    if i + 2 <= |s| {
      if MatchStart(s, i) {
        var e := AmountEnd(s, i);
        PriceMatchesLocated(s, e);
        MatchAtRun(s, i);
        LocatedCons(s, i, e, AmountAt(s, i), PriceMatchesFrom(s, e));
      } else {
        PriceMatchesLocated(s, i + 1);
        LocatedLater(s, i, PriceMatchesFrom(s, i + 1));
      }
    }
  }

  /** The amount read after an "R$" is the one captured for it. */
  lemma MatchAtRun(s: string, i: nat)
    requires i + 2 <= |s| && s[i] == 'R' && s[i + 1] == '$'
    ensures MatchAt(s, i, AmountAt(s, i))
  {
  }

  /** Matches located after `i + 1` are located after `i`. */
  lemma LocatedLater(s: string, i: nat, r: seq<string>)
    requires AllMatchedFrom(s, i + 1, r)
    ensures AllMatchedFrom(s, i, r)
  {
    forall k | 0 <= k < |r| ensures MatchedFrom(s, i, r[k]) {
      assert MatchedFrom(s, i + 1, r[k]);
      var p :| i + 1 <= p < |s| && MatchAt(s, p, r[k]);
    }
  }

  /** A match at `i` followed by matches located after `e >= i`. */
  lemma LocatedCons(s: string, i: nat, e: nat, m: string, rest: seq<string>)
    requires i <= e && i < |s| && MatchAt(s, i, m)
    requires AllMatchedFrom(s, e, rest)
    ensures AllMatchedFrom(s, i, [m] + rest)
  {
    var r := [m] + rest;
    forall k | 0 <= k < |r| ensures MatchedFrom(s, i, r[k]) {
      if k > 0 {
        assert r[k] == rest[k - 1] && MatchedFrom(s, e, rest[k - 1]);
        var p :| e <= p < |s| && MatchAt(s, p, rest[k - 1]);
      }
    }
  }

  /** A position where the pattern does not match is skipped. */
  lemma PriceMatchesSkip(s: string, i: nat)
    requires i < |s| && !MatchStart(s, i)
    ensures PriceMatchesFrom(s, i) == PriceMatchesFrom(s, i + 1)
  {
  }

  /** The first match found from `i` is the amount at the leftmost position
      at or after `i` where the pattern matches, and the search resumes
      after that amount. */
  lemma {:induction false} PriceMatchesFirst(s: string, i: nat, p: nat)
    requires i <= p && MatchStart(s, p)
    requires forall q | i <= q < p :: !MatchStart(s, q)
    ensures PriceMatchesFrom(s, i) == [AmountAt(s, p)] + PriceMatchesFrom(s, AmountEnd(s, p))
    decreases p - i
  {
    if i < p {
      PriceMatchesSkip(s, i);
      PriceMatchesFirst(s, i + 1, p);
    }
  }

  /** Nothing is found from `i` exactly when the pattern matches at no
      position at or after `i`: a price in the text is never missed. */
  lemma {:induction false} PriceMatchesEmptyIff(s: string, i: nat)
    requires i <= |s|
    ensures PriceMatchesFrom(s, i) == [] <==> forall p | i <= p < |s| :: !MatchStart(s, p)
    decreases |s| - i
  {
    if i + 2 <= |s| && !MatchStart(s, i) {
      PriceMatchesSkip(s, i);
      PriceMatchesEmptyIff(s, i + 1);
    }
  }

  /** "R$", `w` whitespace characters (possibly none) and a non-empty amount
      `m` that the text does not continue, at index `i`: the pattern matches
      there, and exactly `m` is the amount. */
  lemma MatchStartExact(s: string, i: nat, w: nat, m: string)
    requires m != "" && AllPriceChars(m)
    requires i + 2 + w + |m| <= |s| && s[i] == 'R' && s[i + 1] == '$'
    requires forall k | i + 2 <= k < i + 2 + w :: IsSpace(s[k])
    requires s[i + 2 + w..i + 2 + w + |m|] == m
    requires i + 2 + w + |m| == |s| || !PriceChar(s[i + 2 + w + |m|])
    ensures MatchStart(s, i) && AmountAt(s, i) == m && AmountEnd(s, i) == i + 2 + w + |m|
  {
    var j := i + 2 + w;
    assert SpaceRun(s, i + 2) == w by {
      assert s[j] == m[0] && PriceChar(m[0]);
      SpaceRunExact(s, i + 2, w);
    }
    assert PriceRun(s, j) == |m| by {
      forall k | j <= k < j + |m| ensures PriceChar(s[k]) {
        assert s[k] == m[k - j];
      }
      PriceRunExact(s, j, |m|);
    }
  }

  /** With the same layout, that amount is the next match, and the search
      resumes after it. */
  lemma PriceMatchesAt(s: string, i: nat, w: nat, m: string)
    requires m != "" && AllPriceChars(m)
    requires i + 2 + w + |m| <= |s| && s[i] == 'R' && s[i + 1] == '$'
    requires forall k | i + 2 <= k < i + 2 + w :: IsSpace(s[k])
    requires s[i + 2 + w..i + 2 + w + |m|] == m
    requires i + 2 + w + |m| == |s| || !PriceChar(s[i + 2 + w + |m|])
    ensures PriceMatchesFrom(s, i) == [m] + PriceMatchesFrom(s, i + 2 + w + |m|)
  {
    MatchStartExact(s, i, w, m);
  }

  /** "R$", any whitespace (possibly none) and an amount: exactly that
      amount is found. */
  lemma PriceMatchesOfSpaced(sp: string, m: string)
    requires AllSpace(sp) && m != "" && AllPriceChars(m)
    ensures PriceMatches("R$" + sp + m) == [m]
  {
    var s := "R$" + sp + m;
    var w := |sp|;
    assert s[0] == 'R' && s[1] == '$';
    assert forall k | 2 <= k < 2 + w :: s[k] == sp[k - 2];
    assert s[2 + w..2 + w + |m|] == m;
    PriceMatchesAt(s, 0, w, m);
    assert PriceMatchesFrom(s, |s|) == [];
  }

  /** A price written back as "R$ " followed by the matched amount is found
      again by the pattern, and nothing else is. */
  lemma PriceMatchesOfFormatted(m: string)
    requires m != "" && AllPriceChars(m)
    ensures PriceMatches("R$ " + m) == [m]
  {
    assert "R$ " + m == "R$" + " " + m;
    PriceMatchesOfSpaced(" ", m);
  }

  /** Where the pieces of two formatted prices sit in their text. */
  lemma TwoPricesLayout(a: string, b: string, s: string)
    requires s == "R$ " + a + " R$ " + b
    ensures var e := 3 + |a|;
      |s| == e + 4 + |b| && s[0] == 'R' && s[1] == '$' && s[2] == ' ' && s[3..e] == a &&
      s[e] == ' ' && s[e + 1] == 'R' && s[e + 2] == '$' && s[e + 3] == ' ' && s[e + 4..] == b
  {
  }

  /** A text that ends with a space, "R$ " and an amount has that amount as
      its only match from the space on. */
  lemma PriceMatchesOfLast(s: string, e: nat, m: string)
    requires m != "" && AllPriceChars(m) && |s| == e + 4 + |m|
    requires s[e] == ' ' && s[e + 1] == 'R' && s[e + 2] == '$' && s[e + 3] == ' ' && s[e + 4..] == m
    ensures PriceMatchesFrom(s, e) == [m]
  {
    PriceMatchesSkip(s, e);
    assert s[e + 4..e + 4 + |m|] == m;
    PriceMatchesAt(s, e + 1, 1, m);
    assert PriceMatchesFrom(s, |s|) == [];
  }

  /** Two formatted prices laid out in a text are its two matches. */
  lemma PriceMatchesOfTwoIn(s: string, a: string, b: string)
    requires a != "" && AllPriceChars(a) && b != "" && AllPriceChars(b)
    requires var e := 3 + |a|;
      |s| == e + 4 + |b| && s[0] == 'R' && s[1] == '$' && s[2] == ' ' && s[3..e] == a &&
      s[e] == ' ' && s[e + 1] == 'R' && s[e + 2] == '$' && s[e + 3] == ' ' && s[e + 4..] == b
    ensures PriceMatchesFrom(s, 0) == [a, b]
  {
    var e := 3 + |a|;
    assert PriceMatchesFrom(s, 0) == [a] + PriceMatchesFrom(s, e) by {
      assert s[e] == ' ' && !PriceChar(s[e]) && IsSpace(s[2]);
      PriceMatchesAt(s, 0, 1, a);
    }
    assert PriceMatchesFrom(s, e) == [b] by {
      PriceMatchesOfLast(s, e, b);
    }
  }

  /** Two prices written one after the other, separated by a space, are
      found in order: the first feeds the FIPE slot and the second the
      marketplace slot. */
  lemma PriceMatchesOfTwo(a: string, b: string)
    requires a != "" && AllPriceChars(a) && b != "" && AllPriceChars(b)
    ensures PriceMatches("R$ " + a + " R$ " + b) == [a, b]
  {
    var s := "R$ " + a + " R$ " + b;
    TwoPricesLayout(a, b, s);
    PriceMatchesOfTwoIn(s, a, b);
  }

  /** A text without '$' has no prices. */
  lemma {:induction false} NoDollarNoPrices(s: string, i: nat)
    requires i <= |s| && forall k | 0 <= k < |s| :: s[k] != '$'
    ensures PriceMatchesFrom(s, i) == []
    decreases |s| - i
  {
    if i + 2 <= |s| {
      assert s[i + 1] != '$';
      NoDollarNoPrices(s, i + 1);
    }
  }

  /** The two prices: the first two non-blank selector texts, and then the
      regex matches of the page text for the slots still empty, the first
      match for the FIPE price and the second for the marketplace price,
      each written as "R$ " and the amount. */
  function PricesOf(elements: seq<string>, text: string): (Option<string>, Option<string>) {
    var found := NonBlank(elements);
    var fipe := if |found| >= 1 then Some(found[0]) else None;
    var web := if |found| >= 2 then Some(found[1]) else None;
    if fipe.None? || web.None? then
      var m := PriceMatches(text);
      (if |m| >= 1 && fipe.None? then Some("R$ " + m[0]) else fipe,
       if |m| >= 2 && web.None? then Some("R$ " + m[1]) else web)
    else (fipe, web)
  }

  /** The price slots filled step by step: selector texts first, then the
      pattern for the empty slots. A slot is empty exactly when it is
      `None`, because every value put in it is non-empty. */
  method FillPrices(elements: seq<string>, text: string) returns (precoFipe: Option<string>, precoWebmotors: Option<string>)
    ensures (precoFipe, precoWebmotors) == PricesOf(elements, text)
  {
    precoFipe := None;
    precoWebmotors := None;
    if elements != [] {
      var found := NonBlank(elements);
      if |found| >= 1 {
        precoFipe := Some(found[0]);
      }
      if |found| >= 2 {
        precoWebmotors := Some(found[1]);
      }
    }
    if precoFipe.None? || precoWebmotors.None? {
      var m := PriceMatches(text);
      if m != [] {
        if |m| >= 1 && precoFipe.None? {
          precoFipe := Some("R$ " + m[0]);
        }
        if |m| >= 2 && precoWebmotors.None? {
          precoWebmotors := Some("R$ " + m[1]);
        }
      }
    }
  }

  /** A price taken from the selectors is never overwritten by the pattern,
      and a slot the selectors left empty takes the corresponding match. */
  lemma PricesSelectorsFirst(elements: seq<string>, text: string)
    ensures var found := NonBlank(elements);
      var m := PriceMatches(text);
      var (fipe, web) := PricesOf(elements, text);
      (|found| >= 1 ==> fipe == Some(found[0])) &&
      (|found| >= 2 ==> web == Some(found[1])) &&
      (|found| == 0 ==> fipe == (if |m| >= 1 then Some("R$ " + m[0]) else None)) &&
      (|found| <= 1 ==> web == (if |m| >= 2 then Some("R$ " + m[1]) else None))
  {
  }

  /** Both prices are missing exactly when no selector text is non-blank
      and the page text holds no price; every price found is non-empty. */
  lemma PricesAbsentIff(elements: seq<string>, text: string)
    ensures var (fipe, web) := PricesOf(elements, text);
      (fipe.None? && web.None? <==> NonBlank(elements) == [] && PriceMatches(text) == []) &&
      (fipe.Some? ==> fipe.value != "") && (web.Some? ==> web.value != "")
  {
  }

  /** A marketplace price is present only when a FIPE price is. */
  lemma PricesWebNeedsFipe(elements: seq<string>, text: string)
    ensures PricesOf(elements, text).1.Some? ==> PricesOf(elements, text).0.Some?
  {
  }

  // ---------------------------------------------------------------------------
  // The outcome of one page

  /** The record one page yields, given the number of pages processed so far
      (this one included) and, for the first page, the error that writing
      its debug copy raised, if any. */
  function Outcome(config: Config, page: Page, processed: nat, writeError: Option<string>): (r: Record)
    ensures r.url == page.url
    ensures r.Failed? ==> r.configuracao == Some(config)
    ensures r.Vehicle? ==> r.dadosConfiguracao == config && (r.precoFipe.Some? || r.precoWebmotors.Some?)
  {
    if NotFound(page.status, page.text) then Failed(NotFoundMessage, page.url, Some(config))
    else if processed <= 1 && writeError.Some? then Failed(writeError.value, page.url, Some(config))
    else
      var prices := PricesOf(page.priceElements, page.text);
      if prices.0.None? && prices.1.None? then Failed(NoPricesMessage, page.url, Some(config))
      else
        Vehicle(Upper(config.brand), Upper(config.model), Versao(config, page), config.year,
          Upper(config.state), prices.0, prices.1, page.url, config)
  }

  /** A missing page yields the not-found error and no vehicle. */
  lemma OutcomeNotFound(config: Config, page: Page, processed: nat, writeError: Option<string>)
    requires NotFound(page.status, page.text)
    ensures Outcome(config, page, processed, writeError) == Failed(NotFoundMessage, page.url, Some(config))
  {
  }

  /** A page yields a vehicle exactly when it exists, its debug copy did not
      fail, and some price was found; the vehicle carries the configured
      brand, model and state upper-cased, the configured year, the version
      and both prices. */
  lemma OutcomeVehicleIff(config: Config, page: Page, processed: nat, writeError: Option<string>)
    ensures var r := Outcome(config, page, processed, writeError);
      var prices := PricesOf(page.priceElements, page.text);
      (r.Vehicle? <==>
        !NotFound(page.status, page.text) && !(processed <= 1 && writeError.Some?) &&
        (NonBlank(page.priceElements) != [] || PriceMatches(page.text) != [])) &&
      (r.Vehicle? ==>
        r.marca == Upper(config.brand) && r.modelo == Upper(config.model) &&
        r.versao == Versao(config, page) && r.ano == config.year && r.estado == Upper(config.state) &&
        r.precoFipe == prices.0 && r.precoWebmotors == prices.1)
  {
    PricesAbsentIff(page.priceElements, page.text);
  }

  /** An existing page whose prices are all missing yields the no-prices
      error, unless the debug copy failed first. */
  lemma OutcomeNoPrices(config: Config, page: Page, processed: nat, writeError: Option<string>)
    requires !NotFound(page.status, page.text) && !(processed <= 1 && writeError.Some?)
    requires NonBlank(page.priceElements) == [] && PriceMatches(page.text) == []
    ensures Outcome(config, page, processed, writeError) == Failed(NoPricesMessage, page.url, Some(config))
  {
    PricesAbsentIff(page.priceElements, page.text);
  }

  /** On the first page, a debug copy that could not be written gives the
      error record carrying the exception's message, unless the page was
      already found missing. */
  lemma OutcomeWriteError(config: Config, page: Page, processed: nat, writeError: Option<string>)
    requires !NotFound(page.status, page.text) && processed <= 1 && writeError.Some?
    ensures Outcome(config, page, processed, writeError) == Failed(writeError.value, page.url, Some(config))
  {
  }

  /** Only the first page writes a debug copy, so a later page never fails
      for that reason. */
  lemma OutcomeIgnoresWriteAfterFirst(config: Config, page: Page, processed: nat, e: string)
    requires processed > 1
    ensures Outcome(config, page, processed, Some(e)) == Outcome(config, page, processed, None)
  {
  }

  /** The steps that produce the record of one page: the not-found check,
      the debug copy of the first page, the breadcrumb, the version and the
      prices. */
  method PageRecord(config: Config, page: Page, processed: nat, writeError: Option<string>) returns (rec: Record)
    ensures rec == Outcome(config, page, processed, writeError)
  {
    if NotFound(page.status, page.text) {
      return Failed(NotFoundMessage, page.url, Some(config));
    }
    if processed <= 1 && writeError.Some? {
      // The debug copy could not be written: the handler records the error.
      return Failed(writeError.value, page.url, Some(config));
    }
    var marca, modelo := BreadcrumbBrandAndModel(config, page.breadcrumb);
    var versao := FindVersion(config, page);
    var precoFipe, precoWebmotors := FillPrices(page.priceElements, page.text);
    if precoFipe.None? && precoWebmotors.None? {
      return Failed(NoPricesMessage, page.url, Some(config));
    }
    rec := Vehicle(marca, modelo, versao, config.year, Upper(config.state), precoFipe, precoWebmotors, page.url, config);
  }

  // ---------------------------------------------------------------------------
  // The spider's counters and results

  /** Number of vehicle records in `rs`. */
  function CountVehicles(rs: seq<Record>): (n: nat)
    ensures n <= |rs|
  {
    if rs == [] then 0
    else CountVehicles(rs[..|rs| - 1]) + (if rs[|rs| - 1].Vehicle? then 1 else 0)
  }

  lemma CountVehiclesAppend(rs: seq<Record>, r: Record)
    ensures CountVehicles(rs + [r]) == CountVehicles(rs) + (if r.Vehicle? then 1 else 0)
  {
    assert (rs + [r])[..|rs|] == rs;
  }

  class WebMotorsCrawler {
    var processedItems: nat
    var sucesso: nat
    var falha: nat
    var resultados: seq<Record>

    /** `sucesso` counts the vehicle records and `falha` the error records,
        so the two add up to the number of records; every processed page
        added one record. */
    predicate Valid()
      reads this
    {
      sucesso == CountVehicles(resultados) &&
      sucesso + falha == |resultados| &&
      processedItems <= |resultados|
    }

    constructor ()
      ensures Valid()
      ensures processedItems == 0 && sucesso == 0 && falha == 0 && resultados == []
    {
      processedItems := 0;
      sucesso := 0;
      falha := 0;
      resultados := [];
    }

    /** One answer: the page counts as processed, its record is appended,
        and exactly one of the two counters goes up. */
    method ParseFipePage(config: Config, page: Page, writeError: Option<string>) returns (rec: Record)
      requires Valid()
      modifies this
      ensures Valid()
      ensures processedItems == old(processedItems) + 1
      ensures rec == Outcome(config, page, processedItems, writeError)
      ensures resultados == old(resultados) + [rec]
      ensures sucesso == old(sucesso) + (if rec.Vehicle? then 1 else 0)
      ensures falha == old(falha) + (if rec.Vehicle? then 0 else 1)
    {
      processedItems := processedItems + 1;
      rec := PageRecord(config, page, processedItems, writeError);
      if rec.Vehicle? {
        sucesso := sucesso + 1;
        CountVehiclesAppend(resultados, rec);
        resultados := resultados + [rec];
      } else {
        Fail(rec);
      }
    }

    /** A request that failed before any answer: its error is recorded with
        the request's configuration, if it carried one. */
    method HandleError(url: string, config: Option<Config>, message: string) returns (rec: Record)
      requires Valid()
      modifies this
      ensures Valid()
      ensures rec == Failed(message, url, config)
      ensures processedItems == old(processedItems) && sucesso == old(sucesso)
      ensures falha == old(falha) + 1 && resultados == old(resultados) + [rec]
    {
      rec := Failed(message, url, config);
      Fail(rec);
    }

    /** Records an error: one more failure and one more record. */
    method Fail(rec: Record)
      requires rec.Failed? && sucesso == CountVehicles(resultados) && sucesso + falha == |resultados|
      modifies this
      ensures falha == old(falha) + 1 && resultados == old(resultados) + [rec]
      ensures sucesso == old(sucesso) && processedItems == old(processedItems)
      ensures sucesso == CountVehicles(resultados) && sucesso + falha == |resultados|
    {
      CountVehiclesAppend(resultados, rec);
      falha := falha + 1;
      resultados := resultados + [rec];
    }
  }
}

=== FILE: wrappers.dfy ===
/** Optional values and results, standing for Python's `None` and for
    operations that may raise. */
module Wrappers {

  datatype Option<+T> = None | Some(value: T) {

    /** The value, or `default` when there is none (Python's `x or default`
        for a value that is never falsy). */
    function GetOr(default: T): T {
      match this
      case Some(v) => v
      case None => default
    }
  }

  datatype Result<+R> = Success(value: R) | Failure(error: string)
}
